=== FILE: README.md ===
# Arcade engines and media store of Media-Manager, in Dafny

This project models three parts of Media-Manager, a media-centre web app
with built-in arcade games. Each part is modelled as pure functions over
immutable data.

- **Tetris engine** (`client/src/components/tetris-game.tsx`). It covers
  the seven tetromino templates, the clockwise matrix rotation, and the
  collision test `isValidMove`. It covers `placePiece` locking a piece
  into the 10 × 20 board and `clearLines` splicing out full rows, with
  line scoring and levels. It covers spawning, validate-then-commit moves
  and rotations, the hard drop, the soft-drop key, the drop/lock branch
  of `gameLoop`, and the key handler. Modules: `TetrisPieces`,
  `TetrisBoard`, `TetrisGame`.
- **Snake engine** (`client/src/components/snake-game.tsx`). It covers
  the 20 × 15 grid, `resetGame`, rejection-sampled food
  (`generateFood`), the 150 ms tick `updateGame`, the reversal guard in
  `changeDirection`, and the key handler. Module: `Snake`.
- **In-memory store** (`server/storage.ts`, `MemStorage`). It covers the
  two `Map`s with their id counters, adding, listing and deleting media
  files, adding and listing game scores, and the top-scores query.
  Module: `Storage`.

Side effects become data. The `onScoreChange` and `onGameOver` callbacks
become a list of `Event`s that each step returns. `Math.random` becomes
a parameter: a template number for Tetris, a sequence of random draws for
Snake. `new Date()` and the `requestAnimationFrame` timestamp become
integer parameters.

Tetris has no game-over flag in its state. A spawn that collides reports
`GameOver`, and the frame chain ends because `gameLoop` returns before
it schedules the next frame
(`client/src/components/tetris-game.tsx:301-303`). The host's
`isRunning` flag gates key input; a frame sees the value captured when
its loop was started. So Tetris steps take `running` as a parameter, and
their invariants hold "unless the step ended the game".

A JavaScript `Map` iterates in insertion order. The store therefore keeps
each map as the sequence of its records in that order, together with the
counter. Ids grow with insertion, so insertion order is ascending id
order.

## Model

| member | source | states |
|---|---|---|
| TetrisPieces.TemplateWellFormed | client/src/components/tetris-game.tsx:25-79 | each of the seven templates is a rectangle of at most 4 by 4 with exactly four filled cells and a non-empty colour |
| TetrisPieces.Rotate | client/src/components/tetris-game.tsx:107-112 | an r-by-c shape becomes c-by-r, and cell (i, j) of the result is cell (r-1-j, i) of the shape: the clockwise quarter turn |
| TetrisPieces.RotateWellShaped | client/src/components/tetris-game.tsx:107-112 | rotation keeps a shape rectangular, at most 4 by 4 and with a filled cell |
| TetrisPieces.RotateTwice | client/src/components/tetris-game.tsx:107-112 | two rotations turn the shape through half a revolution |
| TetrisPieces.RotateFourTimes | client/src/components/tetris-game.tsx:107-112 | four rotations give back the original shape |
| TetrisPieces.RotateFilledCells | client/src/components/tetris-game.tsx:107-112 | the filled cells after rotation are exactly the images of the filled cells before |
| TetrisPieces.RotatePreservesCellCount | client/src/components/tetris-game.tsx:107-112 | rotation keeps the number of filled cells |
| TetrisPieces.RotateO | client/src/components/tetris-game.tsx:32-38 | the O-piece is unchanged by rotation |
| TetrisBoard.EmptyBoard | client/src/components/tetris-game.tsx:84 | the starting board is 20 rows of 10 cells, all empty |
| TetrisBoard.ScanShape | client/src/components/tetris-game.tsx:119-135 | the nested scan succeeds iff every filled cell of the remaining rows lands on an acceptable board cell |
| TetrisBoard.IsValidMove | client/src/components/tetris-game.tsx:114-137 | true iff every filled cell of the moved shape has 0 <= column < 10 and row < 20 and, when its row is >= 0, an empty board cell; cells above the top are allowed |
| TetrisBoard.ValidIsInBounds | client/src/components/tetris-game.tsx:114-137 | a piece that passes the collision test has every filled cell inside the columns and above the floor |
| TetrisBoard.PlacePiece | client/src/components/tetris-game.tsx:139-152 | the piece colour is written into exactly the board cells under its filled cells with row >= 0, and every other cell keeps its value |
| TetrisBoard.PlaceValidPiece | client/src/components/tetris-game.tsx:139-152 | for a piece that passes the collision test, the cells written were empty before, and a cell changes iff the piece covers it |
| TetrisBoard.KeptIsFilter | client/src/components/tetris-game.tsx:159-161 | the rows that survive a clear are the input rows minus exactly the full ones, counted with multiplicity |
| TetrisBoard.ClearFrom | client/src/components/tetris-game.tsx:158-165 | scanning upward from row y, re-checking a row after a splice, leaves the not-full rows of 0..y in order under one empty row per full row, and counts those full rows |
| TetrisBoard.ClearLines | client/src/components/tetris-game.tsx:154-165 | the count is the number of full rows; the result is that many empty rows on top of the not-full rows in their original order; it is 10 by 20 and has no full row |
| TetrisBoard.ClearNoFullRow | client/src/components/tetris-game.tsx:154-165 | a board without full rows is left unchanged with a count of 0 |
| TetrisBoard.LockClearsAtMostShapeRows | client/src/components/tetris-game.tsx:167-173 | locking a piece into a board with no full row can fill at most as many rows as the shape has, so the index into the line-score table stays in range |
| TetrisGame.CreatePiece | client/src/components/tetris-game.tsx:98-105 | a created piece has the chosen template's shape and colour and sits at column 4, row 0 |
| TetrisGame.SpawnFitsEmptyBoard | client/src/components/tetris-game.tsx:98-105 | every shape in play fits the empty board at the spawn position |
| TetrisGame.Spawn | client/src/components/tetris-game.tsx:182-199 | the waiting piece becomes current and a fresh piece waits; the spawn succeeds iff the new current piece fits where it stands |
| TetrisGame.NewGame | client/src/components/tetris-game.tsx:320-339 | a new game has an empty board, score 0, 0 lines, level 1, both frame timers at 0, the two created pieces, satisfies the game invariant, and reports score 0 |
| TetrisGame.MovePiece | client/src/components/tetris-game.tsx:201-211 | the move succeeds iff the moved piece fits; on success only the current piece's position changes, by exactly (dx, dy), and the piece is still valid; on failure nothing changes |
| TetrisGame.RotatePieceAction | client/src/components/tetris-game.tsx:228-236 | the rotated shape is committed iff it fits at the same position; otherwise nothing changes |
| TetrisGame.MovesKeepInv | client/src/components/tetris-game.tsx:201-236 | moves and rotations keep the game invariant: a valid current piece stays valid |
| TetrisGame.DropDistance | client/src/components/tetris-game.tsx:217-220 | the piece can move down by every distance up to the result and cannot move one row further |
| TetrisGame.HardDrop | client/src/components/tetris-game.tsx:213-226 | the piece falls straight down until the next row down is blocked, every intermediate row fits, 2 points are added per row fallen, the score is reported, and nothing else changes |
| TetrisGame.HardDropKeepsInv | client/src/components/tetris-game.tsx:213-226 | a hard drop keeps the game invariant |
| TetrisGame.SoftDrop | client/src/components/tetris-game.tsx:367-376 | the soft-drop key moves one row down and adds 1 point only when the move succeeds; otherwise nothing happens |
| TetrisGame.DropInterval | client/src/components/tetris-game.tsx:294 | the drop interval is never below 50 ms, is at least 1000 ms at level 1, and is exactly 50 ms from level 20 on |
| TetrisGame.DropIntervalMonotone | client/src/components/tetris-game.tsx:294 | a higher level never has a longer drop interval |
| TetrisGame.ScoreLines | client/src/components/tetris-game.tsx:167-179 | clearing no rows changes nothing; clearing k > 0 rows adds k to the lines, recomputes the level as lines / 10 + 1, and adds the k-row score times the new level |
| TetrisGame.ScoreLinesMonotone | client/src/components/tetris-game.tsx:167-179 | line scoring never lowers score, lines or level, and keeps level = lines / 10 + 1 |
| TetrisGame.SingleLineClear | client/src/components/tetris-game.tsx:167-179 | one cleared row is worth 100 times the level reached after counting it |
| TetrisGame.Lock | client/src/components/tetris-game.tsx:296-304 | locking places the piece, clears and scores the full rows (at most 4), promotes the waiting piece, reports the score only if rows were cleared, and reports game over iff the promoted piece collides |
| TetrisGame.LockEndsGame | client/src/components/tetris-game.tsx:192-196 | a lock ends the game exactly when the promoted piece does not fit the cleared board |
| TetrisGame.LockKeepsInv | client/src/components/tetris-game.tsx:296-304 | a lock that does not end the game keeps the game invariant |
| TetrisGame.LockMonotone | client/src/components/tetris-game.tsx:296-304 | a lock never lowers score, lines or level |
| TetrisGame.Advance | client/src/components/tetris-game.tsx:290-292 | a frame records its timestamp and adds exactly the elapsed time to the drop accumulator, changing nothing else |
| TetrisGame.Tick | client/src/components/tetris-game.tsx:286-307 | a frame does nothing when the flag it captured is off; otherwise it advances the clock, and when a drop is due it moves the piece down if that fits and otherwise locks it; the drop accumulator resets unless the lock ended the game |
| TetrisGame.TickKeepsInv | client/src/components/tetris-game.tsx:286-307 | a frame that does not end the game keeps the invariant, and no frame lowers score, lines or level |
| TetrisGame.KeyPress | client/src/components/tetris-game.tsx:349-390 | keys do nothing when not running; otherwise they never touch the board, waiting piece, lines or level, never lower the score, and never end the game; left, right and rotate are the validated moves, the down key is the soft drop and space is the hard drop |
| TetrisGame.KeyPressKeepsInv | client/src/components/tetris-game.tsx:356-385 | every key keeps the game invariant |
| Snake.PrependKeepsWellLaid | client/src/components/snake-game.tsx:113 | a new head on a free grid cell next to the old head keeps the body in the grid, pairwise distinct and 4-connected |
| Snake.DropTailKeepsWellLaid | client/src/components/snake-game.tsx:121 | dropping the tail keeps the body in the grid, pairwise distinct and 4-connected |
| Snake.MountState | client/src/components/snake-game.tsx:17-24 | the state held before any reset has its food below the last grid row and breaks the invariant |
| Snake.MountFoodNeverEaten | client/src/components/snake-game.tsx:85-123 | from food at (15, 15) no tick eats: the food, and with it the score, stay as they are |
| Snake.Reset | client/src/components/snake-game.tsx:32-42 | a reset gives one segment at (10, 7), both directions (1, 0), food at (14, 10), score 0, not over, reports score 0, and satisfies the invariant |
| Snake.FirstFree | client/src/components/snake-game.tsx:46-53 | the sampling loop stops at the first draw that is off the snake, and every earlier draw was on it |
| Snake.GenerateFood | client/src/components/snake-game.tsx:44-55 | new food is one of the draws, on the grid and off the snake |
| Snake.Tick | client/src/components/snake-game.tsx:85-123 | a tick does nothing when not running or after game over; otherwise it commits the buffered direction; it ends the game iff the new head leaves the grid or lands on any segment, tail included, and then keeps snake, score and food and reports the score; it grows by one and scores 10 with new food off the snake when the head lands on food; otherwise it moves, keeping length, score and food |
| Snake.MoveKeepsInv | client/src/components/snake-game.tsx:113-122 | a plain move keeps the invariant |
| Snake.EatKeepsInv | client/src/components/snake-game.tsx:113-119 | eating keeps the invariant: one more segment, 10 more points, food off the grown snake |
| Snake.TickKeepsInv | client/src/components/snake-game.tsx:85-123 | every tick keeps the invariant: segments in the grid, pairwise distinct and 4-adjacent; food in the grid and off the snake; score = 10 × (length − 1); the buffered direction never reverses the current one |
| Snake.TickLength | client/src/components/snake-game.tsx:113-122 | the snake grows by one exactly when it eats and otherwise keeps its length, and the score stays 10 per segment grown |
| Snake.FirstTickMovesRight | client/src/components/snake-game.tsx:32-42 | the first tick after a reset moves the head to (11, 7) without growing or ending the game |
| Snake.ChangeDirection | client/src/components/snake-game.tsx:158-168 | after game over, or for the exact reverse of the committed direction, nothing changes; otherwise only the buffered direction changes |
| Snake.ChangeDirectionKeepsInv | client/src/components/snake-game.tsx:158-168 | a direction request keeps the invariant, so the buffered direction never reverses the committed one |
| Snake.KeyDirection | client/src/components/snake-game.tsx:179-200 | up/w requests (0, -1), down/s (0, 1), left/a (-1, 0) and right/d (1, 0), each a unit step |
| Snake.KeyDirectionsDistinct | client/src/components/snake-game.tsx:179-200 | different keys request different directions, and a key's request reverses another's exactly for up/down and left/right |
| Snake.KeyPress | client/src/components/snake-game.tsx:170-200 | a key changes only the buffered direction; while running and not game over it buffers the key's direction unless that reverses the current heading, and otherwise nothing changes |
| Snake.KeyPressKeepsInv | client/src/components/snake-game.tsx:158-200 | a key press keeps the engine invariant and never buffers a reversal of the current heading |
| Storage.NewStorage | server/storage.ts:21-26 | a new store has both maps empty and both counters at 1, and is valid |
| Storage.Lookup | server/storage.ts:16-17 | a lookup finds a record stored under that id, or reports that no record has it |
| Storage.Insert | server/storage.ts:33-42 | a record is stored under the current counter with the caller's fields and the given time, the counter advances by one, and the record is last in iteration order with every earlier record unchanged |
| Storage.InsertKeepsValid | server/storage.ts:33-42 | inserting keeps ids positive, unique, increasing and below the counter; the new id exceeds every stored id; the new record is found under its id and every other id finds what it found before |
| Storage.Filter | server/storage.ts:30 | the filtered list holds exactly the records that pass, and keeps increasing id order |
| Storage.Remove | server/storage.ts:44-46 | removing an id drops exactly the records with that id, keeps the counter, and keeps the table valid |
| Storage.RemoveAbsent | server/storage.ts:44-46 | removing an id that is not stored changes nothing |
| Storage.RemoveLookup | server/storage.ts:44-46 | removing an id leaves the lookup of every other id unchanged |
| Storage.GetMediaFiles | server/storage.ts:28-31 | a missing or empty type returns all files in insertion order; otherwise exactly the files of that type, in increasing id order |
| Storage.AddMediaFile | server/storage.ts:33-42 | the file gets the media counter as id and the given time; the counter advances; the file is appended; scores are untouched; validity is kept |
| Storage.DeleteMediaFile | server/storage.ts:44-46 | exactly the files with that id are removed; the media counter is not reset; scores are untouched; validity is kept |
| Storage.DeleteMediaFileLookup | server/storage.ts:44-46 | after a delete the id finds nothing, every other id finds what it found before, and deleting an absent id is a no-op |
| Storage.GetGameScores | server/storage.ts:48-51 | a missing or empty game returns all scores in insertion order; otherwise exactly that game's scores, in increasing id order |
| Storage.AddGameScore | server/storage.ts:53-62 | the score gets the score counter as id and the given time; the counter advances; the score is appended; media files are untouched; validity is kept |
| Storage.IdsMonotone | server/storage.ts:33-46 | a file added after another gets a larger id, even across a delete in between |
| Storage.InsertByScore | server/storage.ts:67 | inserting into the sorted list adds exactly one copy of the entry |
| Storage.InsertByScoreSorted | server/storage.ts:67 | insertion keeps a list in non-increasing score order |
| Storage.InsertByScoreRanked | server/storage.ts:67 | inserting an entry older than all others keeps descending-score, ascending-id order |
| Storage.SortByScore | server/storage.ts:67 | sorting is a permutation into non-increasing score order |
| Storage.SortByScoreStable | server/storage.ts:67 | on entries in increasing id order the sort is stable: equal scores stay in ascending id order |
| Storage.RankedUnique | server/storage.ts:67 | two arrangements of the same entries both in descending-score, ascending-id order are equal, so every stable sort with this comparator gives the same result |
| Storage.SliceEnd | server/storage.ts:68 | `slice(0, end)` stops at min(end, length) for end >= 0 and at max(length + end, 0) for negative end |
| Storage.PrefixIsTop | server/storage.ts:68 | a prefix of a non-increasing list is non-increasing, is part of the list, and beats every entry it leaves out |
| Storage.ScoresOf | server/storage.ts:65-66 | the game filter keeps exactly the scores of that game |
| Storage.GetTopScores | server/storage.ts:64-70 | only scores of that game are returned, each at most as often as stored, in non-increasing order; length is min(limit, count) for limit >= 0 and max(count + limit, 0) for negative limit; every returned score is at least every omitted score of the game |
| Storage.RankedPrefixIsTop | server/storage.ts:68 | a prefix of a ranked list is ranked and ranks ahead of every entry it leaves out |
| Storage.TopScoresRanked | server/storage.ts:64-70 | in a valid store, equal top scores come out in insertion (ascending id) order, and at a tie on the cut the earliest entries are kept: every returned score ranks ahead of every omitted one |

## Left out

- Rendering: canvas drawing, the Tetris and Snake draw functions, the score panels and React state mirrors (`setScore`, `setLines`, `setLevel`) are not modelled.
- The Pong engine, the MP3 player, the photo gallery, the hardware panel, the REST routes and the database schema are not part of this model.
- Timers: `requestAnimationFrame` and `setInterval(…, 150)` are not modelled. Each Tetris frame gets its timestamp as a parameter, and each Snake tick is one call.
- Randomness: `Math.random` in `createPiece` becomes a template number, and in `generateFood` a sequence of in-grid draws.
- Clocks: `new Date()` in the store becomes an integer timestamp parameter.
- Snake.GenerateFood: needs some draw to be off the snake. The source loop never ends on a full grid, and it keeps drawing until one draw is free.
- Snake.Tick: needs a non-empty snake, which every reachable state has. When the head lands on food, it also needs some draw off the grown snake, for the reason given for `Snake.GenerateFood`.
- Snake.TickKeepsInv: holds for states reached from `Snake.Reset`. The first run after selecting Snake starts from `Snake.MountState` instead, which breaks the invariant (see Findings).
- TetrisGame: the `null` current and next pieces before the first spawn are not modelled. `NewGame` spawns both pieces, as `resetGame` does while running.
- TetrisGame.Tick: needs the game invariant (board 10 by 20 without full rows, current piece valid) when running. Outside it, the source would write outside the board or read past the end of `lineScores`.
- TetrisGame.Lock: needs the game invariant, for the same reason as `TetrisGame.Tick`.
- TetrisGame.KeyPress: needs a 10-by-20 board and a well-shaped current piece while running. An empty shape would make the hard-drop loop run forever.
- TetrisGame.Tick: after a lock whose spawn collides, `gameLoop` returns before `dropTime = 0`, so the accumulator is not reset on that path.
- Tetris game over is an event, not a state flag. The frame chain stops only by returning at a collided spawn; turning `isRunning` off stops key input (`client/src/components/tetris-game.tsx:348-390`), and frames and keys take `running` as a parameter.
- TetrisGame.Tick: `running` stands for the `isRunning` value captured by the `gameLoop` closure when its chain started, which is always true: the chain re-schedules that same closure (`client/src/components/tetris-game.tsx:317`), the only other `requestAnimationFrame` call runs only while running (`client/src/components/tetris-game.tsx:341-346`), and nothing cancels a frame. So a host stop (`client/src/components/game-center.tsx:58-61`) does not halt a loop already running: it keeps dropping, locking and scoring until a spawn collides, and its `onGameOver` then reaches the host, which saves a positive score (`client/src/components/game-center.tsx:63-68`). A restart while such a chain is alive starts a second chain on the same state. The model has one frame per call and does not track how many chains are live.
- Storage: `parseInt` on the route's limit, which can give `NaN`, is outside the store and not modelled. `limit` is an integer.
- Storage: the `async`/`Promise` wrappers are not modelled. Every operation is a plain function.

## Findings

| source | as written | input that shows it | evidently intended | confidence | as-written member | corrected member |
|---|---|---|---|---|---|---|
| client/src/components/snake-game.tsx:17-24 | the state ref starts with food at (15, 15). `resetGame` runs only while the game is not running (snake-game.tsx:125-133), and the host sets the game and `isRunning` together (game-center.tsx:52-56), so the first run after choosing Snake starts from this state | choose Snake in the game centre: the snake starts at (10, 10) and the food sits at row 15, below the last row 14, so it can never be eaten in that run | every run starts from the reset state, with food at (14, 10) on the grid | medium, not executed | Snake.MountFoodNeverEaten | Snake.Reset |

=== FILE: snake.dfy ===
/** The Snake engine: a 20-by-15 grid, a snake stored head first, a buffered
    direction that cannot be reversed, food placed by rejection sampling,
    and a tick that moves, grows or ends the game. The `onScoreChange` and
    `onGameOver` callbacks become events returned by each step. */
module Snake {

  datatype Point = Point(x: int, y: int)

  const CellSize := 20
  const CanvasWidth := 400
  const CanvasHeight := 300
  const GridWidth := CanvasWidth / CellSize
  const GridHeight := CanvasHeight / CellSize

  /** Points for each piece of food eaten. */
  const FoodScore := 10

  datatype Game = Game(
    snake: seq<Point>,
    direction: Point,
    nextDirection: Point,
    food: Point,
    score: int,
    gameOver: bool)

  datatype Event = ScoreChanged(score: int) | GameOver(finalScore: int)

  datatype Step = Step(game: Game, events: seq<Event>)

  predicate InGrid(p: Point) {
    0 <= p.x < GridWidth && 0 <= p.y < GridHeight
  }

  /** One of the four directions the keys produce. */
  predicate IsUnit(d: Point) {
    (d.x == 0 && (d.y == 1 || d.y == -1)) || (d.y == 0 && (d.x == 1 || d.x == -1))
  }

  predicate Opposite(a: Point, b: Point) {
    a.x == -b.x && a.y == -b.y
  }

  function Abs(n: int): nat {
    if n < 0 then -n else n
  }

  /** Two grid cells sharing a side. */
  predicate Adjacent(a: Point, b: Point) {
    Abs(a.x - b.x) + Abs(a.y - b.y) == 1
  }

  function Add(p: Point, d: Point): Point {
    Point(p.x + d.x, p.y + d.y)
  }

  /** A snake body: non-empty, every segment a grid cell, no cell twice,
      and each segment next to the one before. */
  predicate WellLaid(s: seq<Point>) {
    && |s| > 0
    && (forall i :: 0 <= i < |s| ==> InGrid(s[i]))
    && (forall i, j :: 0 <= i < j < |s| ==> s[i] != s[j])
    && (forall i :: 1 <= i < |s| ==> Adjacent(s[i - 1], s[i]))
  }

  /** Prepending a free grid cell next to the head keeps a body well laid. */
  lemma PrependKeepsWellLaid(s: seq<Point>, head: Point)
    requires WellLaid(s) && InGrid(head) && head !in s && Adjacent(head, s[0])
    ensures WellLaid([head] + s)
  {
    var grown := [head] + s;
    forall i, j | 0 <= i < j < |grown|
      ensures grown[i] != grown[j]
    {
      if i == 0 {
        assert grown[j] == s[j - 1];
      } else {
        assert grown[i] == s[i - 1] && grown[j] == s[j - 1];
      }
    }
    forall i | 1 <= i < |grown|
      ensures Adjacent(grown[i - 1], grown[i])
    {
      if i > 1 {
        assert grown[i - 1] == s[i - 2] && grown[i] == s[i - 1];
      }
    }
  }

  /** Dropping the tail of a body longer than one keeps it well laid. */
  lemma DropTailKeepsWellLaid(s: seq<Point>)
    requires WellLaid(s) && |s| > 1
    ensures WellLaid(s[..|s| - 1])
  {
  }

  /** What every state reached from a reset satisfies, alive or over (the
      state the component holds before its first reset does not; see
      `MountState`): the segments
      are grid cells, pairwise distinct and each next to the one before;
      the food is a grid cell off the snake; the score is 10 per segment
      grown; both directions are unit steps and the buffered one does not
      reverse the current one. */
  predicate Inv(g: Game) {
    && WellLaid(g.snake)
    && InGrid(g.food) && g.food !in g.snake
    && g.score == FoodScore * (|g.snake| - 1)
    && IsUnit(g.direction) && IsUnit(g.nextDirection) && !Opposite(g.nextDirection, g.direction)
  }

  /** `resetGame`: one segment at the grid centre heading right, food at 70%
      across and 70% down (rounded down), score 0, and a score notification
      of 0. */
  function Reset(): (r: Step)
    ensures r.game.snake == [Point(10, 7)]
    ensures r.game.direction == Point(1, 0) && r.game.nextDirection == Point(1, 0)
    ensures r.game.food == Point(14, 10)
    ensures r.game.score == 0 && !r.game.gameOver
    ensures r.events == [ScoreChanged(0)]
    ensures Inv(r.game)
  {
    var centre := Point(GridWidth / 2, GridHeight / 2);
    var food := Point(GridWidth * 7 / 10, GridHeight * 7 / 10);
    Step(Game([centre], Point(1, 0), Point(1, 0), food, 0, false), [ScoreChanged(0)])
  }

  /** The state the component holds when it mounts, before any reset. The
      host mounts the component with the game already running, and the
      reset runs only when the game is not running, so the first run starts
      from here. Its food lies below the last grid row. */
  function MountState(): (g: Game)
    ensures |g.snake| == 1 && InGrid(g.snake[0])
    ensures !InGrid(g.food) && !Inv(g)
    ensures !g.gameOver && g.score == 0
  {
    Game([Point(10, 10)], Point(1, 0), Point(1, 0), Point(15, 15), 0, false)
  }

  /** From the mount state the food can never be eaten: the head never
      leaves the grid without ending the game, the food is off the grid,
      and a tick that does not eat leaves the food where it is. */
  lemma MountFoodNeverEaten(g: Game, running: bool, draws: seq<Point>)
    requires |g.snake| > 0 && g.food == MountState().food
    requires forall i :: 0 <= i < |draws| ==> InGrid(draws[i])
    ensures !Eats(g)
    ensures Tick(g, running, draws).game.food == g.food
    ensures Tick(g, running, draws).game.score == g.score
  {
  }

  /** Some random draw is a cell off the snake. Without one the source's
      sampling loop never ends. */
  predicate FreeDraw(snake: seq<Point>, draws: seq<Point>) {
    exists i :: 0 <= i < |draws| && draws[i] !in snake
  }

  /** The index of the first draw that is off the snake. */
  function FirstFree(snake: seq<Point>, draws: seq<Point>): (i: nat)
    requires FreeDraw(snake, draws)
    ensures i < |draws| && draws[i] !in snake
    ensures forall j :: 0 <= j < i ==> draws[j] in snake
  {
    if draws[0] !in snake then 0
    else
      var rest := draws[1..];
      assert FreeDraw(snake, rest) by {
        var i :| 0 <= i < |draws| && draws[i] !in snake;
        assert rest[i - 1] == draws[i];
      }
      1 + FirstFree(snake, rest)
  }

  /** `generateFood`: rejection sampling over the random draws, in order;
      the result is the first draw that is off the snake. */
  function GenerateFood(snake: seq<Point>, draws: seq<Point>): (f: Point)
    requires FreeDraw(snake, draws)
    requires forall i :: 0 <= i < |draws| ==> InGrid(draws[i])
    ensures InGrid(f) && f !in snake && f in draws
  {
    draws[FirstFree(snake, draws)]
  }

  /** The cell the head moves to on the next tick. */
  function NextHead(g: Game): Point
    requires |g.snake| > 0
  {
    Add(g.snake[0], g.nextDirection)
  }

  /** The next tick moves the head onto the food without a collision. */
  predicate Eats(g: Game)
    requires |g.snake| > 0
  {
    var head := NextHead(g);
    InGrid(head) && head !in g.snake && head == g.food
  }

  /** `updateGame`, one 150 ms tick. Nothing happens while not running or
      after game over. Otherwise the buffered direction is committed; a
      head leaving the grid or landing on any segment, the tail included,
      ends the game with the snake, score and food untouched; otherwise the
      head is prepended, and the snake grows by eating the food (score +10,
      new food off the grown snake) or else drops its last segment. */
  function Tick(g: Game, running: bool, draws: seq<Point>): (r: Step)
    requires |g.snake| > 0
    requires forall i :: 0 <= i < |draws| ==> InGrid(draws[i])
    requires running && !g.gameOver && Eats(g) ==> FreeDraw([NextHead(g)] + g.snake, draws)
    ensures !running || g.gameOver ==> r == Step(g, [])
    ensures running && !g.gameOver ==>
      r.game.direction == g.nextDirection && r.game.nextDirection == g.nextDirection
    ensures running && !g.gameOver ==>
      (r.game.gameOver <==> !InGrid(NextHead(g)) || NextHead(g) in g.snake)
    ensures running && !g.gameOver && r.game.gameOver ==>
      r.game == g.(direction := g.nextDirection, gameOver := true) && r.events == [GameOver(g.score)]
    ensures running && !g.gameOver && !r.game.gameOver && !Eats(g) ==>
      r.game.snake == [NextHead(g)] + g.snake[..|g.snake| - 1] &&
      r.game.score == g.score && r.game.food == g.food && r.events == []
    ensures running && !g.gameOver && Eats(g) ==>
      r.game.snake == [NextHead(g)] + g.snake && r.game.score == g.score + FoodScore &&
      InGrid(r.game.food) && r.game.food !in r.game.snake &&
      r.events == [ScoreChanged(r.game.score)]
  {
    if !running || g.gameOver then Step(g, [])
    else
      var g1 := g.(direction := g.nextDirection);
      var head := Add(g.snake[0], g1.direction);
      if head.x < 0 || head.x >= GridWidth || head.y < 0 || head.y >= GridHeight then
        Step(g1.(gameOver := true), [GameOver(g1.score)])
      else if head in g.snake then
        Step(g1.(gameOver := true), [GameOver(g1.score)])
      else
        var grown := [head] + g.snake;
        if head == g.food then
          var score := g1.score + FoodScore;
          Step(g1.(snake := grown, score := score, food := GenerateFood(grown, draws)), [ScoreChanged(score)])
        else
          Step(g1.(snake := grown[..|grown| - 1]), [])
  }

  /** `changeDirection`: ignored after game over and when the request is
      the exact reverse of the current (committed) direction; otherwise
      only the buffered direction changes. */
  function ChangeDirection(g: Game, d: Point): (r: Game)
    ensures g.gameOver || Opposite(d, g.direction) ==> r == g
    ensures !g.gameOver && !Opposite(d, g.direction) ==> r == g.(nextDirection := d)
    ensures !Opposite(r.nextDirection, r.direction) || r == g
  {
    if g.gameOver then g
    else if d.x == -g.direction.x && d.y == -g.direction.y then g
    else g.(nextDirection := d)
  }

  /** A direction key: an arrow, or its WASD counterpart. */
  datatype Key = Up | Down | Left | Right

  /** The step each key requests; the grid's rows grow downwards. */
  function KeyDirection(k: Key): (d: Point)
    ensures IsUnit(d)
    ensures k == Up ==> d == Point(0, -1)
    ensures k == Down ==> d == Point(0, 1)
    ensures k == Left ==> d == Point(-1, 0)
    ensures k == Right ==> d == Point(1, 0)
  {
    match k
    case Up => Point(0, -1)
    case Down => Point(0, 1)
    case Left => Point(-1, 0)
    case Right => Point(1, 0)
  }

  /** The key handler: while running, a key buffers its direction unless
      the game is over or the key reverses the current heading; nothing
      else about the game changes. */
  function KeyPress(g: Game, running: bool, k: Key): (r: Game)
    ensures r == g.(nextDirection := r.nextDirection)
    ensures running && !g.gameOver && !Opposite(KeyDirection(k), g.direction) ==>
      r.nextDirection == KeyDirection(k)
    ensures !running || g.gameOver || Opposite(KeyDirection(k), g.direction) ==> r == g
  {
    if running then ChangeDirection(g, KeyDirection(k)) else g
  }

  /** Distinct keys request distinct directions, and each key's reverse is
      the opposite key. */
  lemma KeyDirectionsDistinct(k: Key, l: Key)
    ensures KeyDirection(k) == KeyDirection(l) <==> k == l
    ensures Opposite(KeyDirection(k), KeyDirection(l)) <==>
      (k, l) in {(Up, Down), (Down, Up), (Left, Right), (Right, Left)}
  {
  }

  /** A key press keeps the engine consistent and never buffers a reversal
      of the current heading. */
  lemma KeyPressKeepsInv(g: Game, running: bool, k: Key)
    requires Inv(g)
    ensures Inv(KeyPress(g, running, k))
    ensures !Opposite(KeyPress(g, running, k).nextDirection, KeyPress(g, running, k).direction)
  {
    if running {
      ChangeDirectionKeepsInv(g, KeyDirection(k));
    }
  }

  /** The buffered direction never reverses the current one, whatever is
      requested. */
  lemma ChangeDirectionKeepsInv(g: Game, d: Point)
    requires Inv(g) && IsUnit(d)
    ensures Inv(ChangeDirection(g, d))
    ensures !Opposite(ChangeDirection(g, d).nextDirection, ChangeDirection(g, d).direction)
  {
  }

  /** No unit direction is its own reverse. */
  lemma UnitNotSelfOpposite(d: Point)
    requires IsUnit(d)
    ensures !Opposite(d, d)
  {
  }

  /** A plain move (no food under the new head) keeps the engine
      consistent: the tail cell is released and the food stays off the body. */
  lemma MoveKeepsInv(g: Game, h: Game)
    requires Inv(g)
    requires InGrid(NextHead(g)) && NextHead(g) !in g.snake && NextHead(g) != g.food
    requires h.snake == [NextHead(g)] + g.snake[..|g.snake| - 1]
    requires h.food == g.food && h.score == g.score
    requires h.direction == g.nextDirection && h.nextDirection == g.nextDirection
    ensures Inv(h)
  {
    var grown := [NextHead(g)] + g.snake;
    PrependKeepsWellLaid(g.snake, NextHead(g));
    DropTailKeepsWellLaid(grown);
    assert h.snake == grown[..|grown| - 1];
    assert forall p :: p in h.snake ==> p in grown;
  }

  /** Eating keeps the engine consistent: one more segment, ten more points,
      and fresh food off the grown body. */
  lemma EatKeepsInv(g: Game, h: Game)
    requires Inv(g)
    requires InGrid(NextHead(g)) && NextHead(g) !in g.snake
    requires h.snake == [NextHead(g)] + g.snake
    requires InGrid(h.food) && h.food !in h.snake && h.score == g.score + FoodScore
    requires h.direction == g.nextDirection && h.nextDirection == g.nextDirection
    ensures Inv(h)
  {
    PrependKeepsWellLaid(g.snake, NextHead(g));
  }

  /** Every tick keeps the engine consistent. */
  lemma TickKeepsInv(g: Game, running: bool, draws: seq<Point>)
    requires Inv(g)
    requires forall i :: 0 <= i < |draws| ==> InGrid(draws[i])
    requires running && !g.gameOver && Eats(g) ==> FreeDraw([NextHead(g)] + g.snake, draws)
    ensures Inv(Tick(g, running, draws).game)
  {
    var r := Tick(g, running, draws);
    if !running || g.gameOver {
      assert r.game == g;
    } else if r.game.gameOver {
      assert r.game == g.(direction := g.nextDirection, gameOver := true);
      UnitNotSelfOpposite(g.nextDirection);
    } else {
      if Eats(g) {
        EatKeepsInv(g, r.game);
      } else {
        MoveKeepsInv(g, r.game);
      }
    }
  }

  /** Every tick keeps the score at 10 points per segment grown, and the
      snake grows by exactly one segment when it eats and keeps its length
      otherwise. */
  lemma TickLength(g: Game, running: bool, draws: seq<Point>)
    requires Inv(g)
    requires forall i :: 0 <= i < |draws| ==> InGrid(draws[i])
    requires running && !g.gameOver && Eats(g) ==> FreeDraw([NextHead(g)] + g.snake, draws)
    ensures var r := Tick(g, running, draws);
      && |r.game.snake| == |g.snake| + (if running && !g.gameOver && Eats(g) then 1 else 0)
      && r.game.score == FoodScore * (|r.game.snake| - 1)
  {
    TickKeepsInv(g, running, draws);
  }

  /** From the reset state with no turn, one tick moves the head one cell to
      the right without growing or ending the game. */
  lemma FirstTickMovesRight(draws: seq<Point>)
    requires forall i :: 0 <= i < |draws| ==> InGrid(draws[i])
    ensures var r := Tick(Reset().game, true, draws);
      r.game.snake == [Point(11, 7)] && !r.game.gameOver && r.game.score == 0
  {
    var g := Reset().game;
    assert !Eats(g);
  }
}

=== FILE: storage.dfy ===
/** The in-memory store of the server: two JavaScript maps keyed by number,
    one for uploaded media files and one for game scores, each with its own
    id counter starting at 1. A JavaScript `Map` iterates in insertion
    order, so a table is modelled as the sequence of its entries in that
    order together with the counter. */
module Storage {

  datatype Option<T> = None | Some(value: T)

  /** A stored record: the id the store assigned, the caller's fields, and
      the insertion time (`uploadedAt` for media, `achievedAt` for scores),
      which the store reads from the clock and the model takes as a
      parameter. */
  datatype Row<T> = Row(id: int, data: T, stamp: int)

  /** One map of the store and the counter that numbers its records. */
  datatype Table<T> = Table(rows: seq<Row<T>>, nextId: int)

  /** The fields a client supplies when uploading a file. */
  datatype MediaInfo = MediaInfo(name: string, fileType: string, url: string, size: int)

  /** The fields a client supplies when submitting a score. */
  datatype ScoreInfo = ScoreInfo(game: string, score: int)

  type MediaFile = Row<MediaInfo>

  type GameScore = Row<ScoreInfo>

  datatype MemStorage = MemStorage(mediaFiles: Table<MediaInfo>, gameScores: Table<ScoreInfo>)

  predicate IdsIncreasing<T>(rows: seq<Row<T>>) {
    forall i, j :: 0 <= i < j < |rows| ==> rows[i].id < rows[j].id
  }

  /** What every table of the store satisfies: the counter is at least 1,
      the entries appear in increasing id order (so no id is stored twice),
      and every id is positive and below the counter. */
  predicate Valid<T>(t: Table<T>) {
    && t.nextId >= 1
    && IdsIncreasing(t.rows)
    && forall i :: 0 <= i < |t.rows| ==> 1 <= t.rows[i].id < t.nextId
  }

  predicate StorageValid(s: MemStorage) {
    Valid(s.mediaFiles) && Valid(s.gameScores)
  }

  /** The keyed view of a table's map: the entry stored under `id`, if
      any. */
  function Lookup<T>(rows: seq<Row<T>>, id: int): (r: Option<Row<T>>)
    ensures r.Some? ==> r.value in rows && r.value.id == id
    ensures r.None? <==> forall i :: 0 <= i < |rows| ==> rows[i].id != id
  {
    if rows == [] then None
    else if rows[0].id == id then Some(rows[0])
    else
      var r := Lookup(rows[1..], id);
      assert forall i :: 1 <= i < |rows| ==> rows[i] == rows[1..][i - 1];
      r
  }

  /** The constructor: both maps empty, both counters at 1. */
  function NewStorage(): (s: MemStorage)
    ensures s.mediaFiles.rows == [] && s.gameScores.rows == []
    ensures s.mediaFiles.nextId == 1 && s.gameScores.nextId == 1
    ensures StorageValid(s)
  {
    MemStorage(Table([], 1), Table([], 1))
  }

  /** Store `data` under the current counter and advance the counter. The
      key is fresh, so `Map.set` adds it at the end of the iteration order
      and every earlier entry is left as it was. */
  function Insert<T>(t: Table<T>, data: T, now: int): (r: (Table<T>, Row<T>))
    ensures r.1.id == t.nextId && r.1.data == data && r.1.stamp == now
    ensures r.0.nextId == t.nextId + 1
    ensures |r.0.rows| == |t.rows| + 1 && r.0.rows[..|t.rows|] == t.rows && r.0.rows[|t.rows|] == r.1
  {
    var row := Row(t.nextId, data, now);
    (Table(t.rows + [row], t.nextId + 1), row)
  }

  /** Inserting keeps a table valid; the new id is above every stored id,
      the new record is found under it, and every other id finds what it
      found before. */
  lemma InsertKeepsValid<T>(t: Table<T>, data: T, now: int)
    requires Valid(t)
    ensures var (u, row) := Insert(t, data, now);
      && Valid(u)
      && (forall i :: 0 <= i < |t.rows| ==> t.rows[i].id < row.id)
      && Lookup(u.rows, row.id) == Some(row)
      && forall k :: k != row.id ==> Lookup(u.rows, k) == Lookup(t.rows, k)
  {
    var (u, row) := Insert(t, data, now);
    assert u.rows == t.rows + [row];
    forall i, j | 0 <= i < j < |u.rows|
      ensures u.rows[i].id < u.rows[j].id
    {
      if j < |t.rows| {
        assert u.rows[i] == t.rows[i] && u.rows[j] == t.rows[j];
      } else {
        assert u.rows[i] == t.rows[i];
      }
    }
    LookupAppend(t.rows, row);
  }

  /** Looking up in a sequence with one more entry at the end. */
  lemma {:induction false} LookupAppend<T>(rows: seq<Row<T>>, row: Row<T>)
    requires forall i :: 0 <= i < |rows| ==> rows[i].id != row.id
    ensures Lookup(rows + [row], row.id) == Some(row)
    ensures forall k :: k != row.id ==> Lookup(rows + [row], k) == Lookup(rows, k)
  {
    if rows != [] {
      assert (rows + [row])[1..] == rows[1..] + [row];
      LookupAppend(rows[1..], row);
    }
  }

  /** The entries of `rows` that satisfy `keep`, in their original order. */
  function Filter<T(!new)>(rows: seq<Row<T>>, keep: Row<T> -> bool): (r: seq<Row<T>>)
    ensures |r| <= |rows|
    ensures forall x :: x in r <==> x in rows && keep(x)
    ensures IdsIncreasing(rows) ==> IdsIncreasing(r)
    ensures forall x :: x in r ==> exists i :: 0 <= i < |rows| && rows[i] == x
  {
    if rows == [] then []
    else
      var rest := Filter(rows[1..], keep);
      assert forall x :: x in rows[1..] ==> x in rows;
      assert forall x :: x in rows ==> x == rows[0] || x in rows[1..];
      if keep(rows[0]) then
        assert IdsIncreasing(rows) ==> forall x :: x in rest ==> rows[0].id < x.id;
        [rows[0]] + rest
      else rest
  }

  /** A filter that keeps every entry changes nothing. */
  lemma {:induction false} FilterKeepsAll<T(!new)>(rows: seq<Row<T>>, keep: Row<T> -> bool)
    requires forall i :: 0 <= i < |rows| ==> keep(rows[i])
    ensures Filter(rows, keep) == rows
  {
    if rows != [] {
      FilterKeepsAll(rows[1..], keep);
    }
  }

  /** `Map.delete(id)` on a table: every entry with that key goes, the
      counter stays. */
  function Remove<T(!new)>(t: Table<T>, id: int): (r: Table<T>)
    ensures r.nextId == t.nextId
    ensures forall x :: x in r.rows <==> x in t.rows && x.id != id
    ensures Valid(t) ==> Valid(r)
    ensures Lookup(r.rows, id) == None
  {
    var rows := Filter(t.rows, (x: Row<T>) => x.id != id);
    assert Valid(t) ==> forall i :: 0 <= i < |rows| ==> 1 <= rows[i].id < t.nextId by {
      forall i | 0 <= i < |rows| ensures Valid(t) ==> 1 <= rows[i].id < t.nextId {
        assert rows[i] in t.rows;
      }
    }
    assert forall i :: 0 <= i < |rows| ==> rows[i].id != id by {
      forall i | 0 <= i < |rows| ensures rows[i].id != id {
        assert rows[i] in rows;
      }
    }
    Table(rows, t.nextId)
  }

  /** Removing an id that is not stored changes nothing. */
  lemma RemoveAbsent<T(!new)>(t: Table<T>, id: int)
    requires Lookup(t.rows, id) == None
    ensures Remove(t, id) == t
  {
    FilterKeepsAll(t.rows, (x: Row<T>) => x.id != id);
  }

  /** Removing from a valid table leaves every other id where it was. */
  lemma {:induction false} RemoveLookup<T(!new)>(rows: seq<Row<T>>, id: int, k: int)
    requires k != id
    ensures Lookup(Filter(rows, (x: Row<T>) => x.id != id), k) == Lookup(rows, k)
  {
    if rows != [] {
      RemoveLookup(rows[1..], id, k);
    }
  }

  /** `getMediaFiles(type)`: all files when `type` is missing or empty (the
      empty string is falsy), otherwise the files of that type; in
      insertion order either way. */
  function GetMediaFiles(s: MemStorage, fileType: Option<string>): (r: seq<MediaFile>)
    ensures fileType == None || fileType == Some("") ==> r == s.mediaFiles.rows
    ensures fileType.Some? && fileType.value != "" ==>
      forall f :: f in r <==> f in s.mediaFiles.rows && f.data.fileType == fileType.value
    ensures IdsIncreasing(s.mediaFiles.rows) ==> IdsIncreasing(r)
  {
    match fileType
    case None => s.mediaFiles.rows
    case Some(t) =>
      if t == "" then s.mediaFiles.rows
      else Filter(s.mediaFiles.rows, (f: MediaFile) => f.data.fileType == t)
  }

  /** `addMediaFile`: stores the file under the next media id, stamped with
      the current time; the scores are untouched. */
  function AddMediaFile(s: MemStorage, file: MediaInfo, now: int): (r: (MemStorage, MediaFile))
    ensures r.1.id == s.mediaFiles.nextId && r.1.data == file && r.1.stamp == now
    ensures r.0.mediaFiles.nextId == s.mediaFiles.nextId + 1
    ensures r.0.mediaFiles.rows == s.mediaFiles.rows + [r.1]
    ensures r.0.gameScores == s.gameScores
    ensures StorageValid(s) ==> StorageValid(r.0)
  {
    var (t, row) := Insert(s.mediaFiles, file, now);
    assert StorageValid(s) ==> Valid(t) by {
      if StorageValid(s) {
        InsertKeepsValid(s.mediaFiles, file, now);
      }
    }
    assert t.rows == s.mediaFiles.rows + [row];
    (s.(mediaFiles := t), row)
  }

  /** `deleteMediaFile`: removes the file with that id, if any; the media
      counter is not reset and the scores are untouched. */
  function DeleteMediaFile(s: MemStorage, id: int): (r: MemStorage)
    ensures r.mediaFiles.nextId == s.mediaFiles.nextId && r.gameScores == s.gameScores
    ensures forall f :: f in r.mediaFiles.rows <==> f in s.mediaFiles.rows && f.id != id
    ensures StorageValid(s) ==> StorageValid(r)
  {
    s.(mediaFiles := Remove(s.mediaFiles, id))
  }

  /** `getGameScores(game)`: all scores when `game` is missing or empty,
      otherwise that game's scores; in insertion order either way. */
  function GetGameScores(s: MemStorage, game: Option<string>): (r: seq<GameScore>)
    ensures game == None || game == Some("") ==> r == s.gameScores.rows
    ensures game.Some? && game.value != "" ==>
      forall x :: x in r <==> x in s.gameScores.rows && x.data.game == game.value
    ensures IdsIncreasing(s.gameScores.rows) ==> IdsIncreasing(r)
  {
    match game
    case None => s.gameScores.rows
    case Some(g) =>
      if g == "" then s.gameScores.rows
      else Filter(s.gameScores.rows, (x: GameScore) => x.data.game == g)
  }

  /** `addGameScore`: stores the score under the next score id, stamped with
      the current time; the media files are untouched. */
  function AddGameScore(s: MemStorage, score: ScoreInfo, now: int): (r: (MemStorage, GameScore))
    ensures r.1.id == s.gameScores.nextId && r.1.data == score && r.1.stamp == now
    ensures r.0.gameScores.nextId == s.gameScores.nextId + 1
    ensures r.0.gameScores.rows == s.gameScores.rows + [r.1]
    ensures r.0.mediaFiles == s.mediaFiles
    ensures StorageValid(s) ==> StorageValid(r.0)
  {
    var (t, row) := Insert(s.gameScores, score, now);
    assert StorageValid(s) ==> Valid(t) by {
      if StorageValid(s) {
        InsertKeepsValid(s.gameScores, score, now);
      }
    }
    assert t.rows == s.gameScores.rows + [row];
    (s.(gameScores := t), row)
  }

  /** Scores in non-increasing order, every pair compared. */
  predicate NonIncreasing(xs: seq<GameScore>) {
    forall i, j :: 0 <= i < j < |xs| ==> xs[i].data.score >= xs[j].data.score
  }

  /** `a` ranks strictly ahead of `b`: a higher score, or the same score and
      an earlier id. */
  predicate Ahead(a: GameScore, b: GameScore) {
    a.data.score > b.data.score || (a.data.score == b.data.score && a.id < b.id)
  }

  /** Sorted by descending score with ties in ascending id order. */
  predicate Ranked(xs: seq<GameScore>) {
    forall i, j :: 0 <= i < j < |xs| ==> Ahead(xs[i], xs[j])
  }

  /** Inserts `x` before the first entry whose score is not above its own,
      so `x` goes ahead of the entries it ties with. */
  function InsertByScore(x: GameScore, xs: seq<GameScore>): (r: seq<GameScore>)
    ensures multiset(r) == multiset(xs) + multiset{x}
  {
    if xs == [] || xs[0].data.score <= x.data.score then
      [x] + xs
    else
      assert xs == [xs[0]] + xs[1..];
      [xs[0]] + InsertByScore(x, xs[1..])
  }

  /** Every entry of the insertion result is `x` or an entry of `xs`. */
  lemma InsertByScoreMembers(x: GameScore, xs: seq<GameScore>, k: int)
    requires 0 <= k < |InsertByScore(x, xs)|
    ensures InsertByScore(x, xs)[k] == x || exists m :: 0 <= m < |xs| && xs[m] == InsertByScore(x, xs)[k]
  {
    var r := InsertByScore(x, xs);
    assert r[k] in multiset(r);
  }

  /** Insertion keeps a non-increasing sequence non-increasing. */
  lemma {:induction false} InsertByScoreSorted(x: GameScore, xs: seq<GameScore>)
    requires NonIncreasing(xs)
    ensures NonIncreasing(InsertByScore(x, xs))
  {
    if xs != [] && xs[0].data.score > x.data.score {
      var tail := xs[1..];
      var rest := InsertByScore(x, tail);
      InsertByScoreSorted(x, tail);
      assert InsertByScore(x, xs) == [xs[0]] + rest;
      forall k | 0 <= k < |rest|
        ensures xs[0].data.score >= rest[k].data.score
      {
        InsertByScoreMembers(x, tail, k);
        if rest[k] != x {
          var m :| 0 <= m < |tail| && tail[m] == rest[k];
          assert xs[m + 1] == rest[k];
        }
      }
    }
  }

  /** Insertion of an entry older than all others keeps a ranked sequence
      ranked: it lands ahead of every entry with its score. */
  lemma {:induction false} InsertByScoreRanked(x: GameScore, xs: seq<GameScore>)
    requires Ranked(xs)
    requires forall k :: 0 <= k < |xs| ==> x.id < xs[k].id
    ensures Ranked(InsertByScore(x, xs))
  {
    if xs != [] && xs[0].data.score > x.data.score {
      var tail := xs[1..];
      var rest := InsertByScore(x, tail);
      InsertByScoreRanked(x, tail);
      assert InsertByScore(x, xs) == [xs[0]] + rest;
      forall k | 0 <= k < |rest|
        ensures Ahead(xs[0], rest[k])
      {
        InsertByScoreMembers(x, tail, k);
        if rest[k] != x {
          var m :| 0 <= m < |tail| && tail[m] == rest[k];
          assert xs[m + 1] == rest[k];
        }
      }
    }
  }

  /** The `sort((a, b) => b.score - a.score)` step: a stable sort on
      descending score, by insertion from the back. */
  function SortByScore(xs: seq<GameScore>): (r: seq<GameScore>)
    ensures multiset(r) == multiset(xs)
    ensures NonIncreasing(r)
  {
    if xs == [] then []
    else
      assert xs == [xs[0]] + xs[1..];
      var sorted := SortByScore(xs[1..]);
      InsertByScoreSorted(xs[0], sorted);
      InsertByScore(xs[0], sorted)
  }

  /** The sort is stable: on entries in increasing id order, equal scores
      stay in id order, so the result is fully ranked. */
  lemma {:induction false} SortByScoreStable(xs: seq<GameScore>)
    requires IdsIncreasing(xs)
    ensures Ranked(SortByScore(xs))
  {
    if xs != [] {
      var tail := xs[1..];
      SortByScoreStable(tail);
      var sorted := SortByScore(tail);
      forall k | 0 <= k < |sorted|
        ensures xs[0].id < sorted[k].id
      {
        assert sorted[k] in multiset(tail);
        var m :| 0 <= m < |tail| && tail[m] == sorted[k];
        assert xs[m + 1] == sorted[k];
      }
      InsertByScoreRanked(xs[0], sorted);
    }
  }

  /** Two ranked arrangements of the same entries are equal, so any stable
      sort on descending score, whatever its algorithm, yields the result
      `SortByScore` yields. */
  lemma {:induction false} RankedUnique(a: seq<GameScore>, b: seq<GameScore>)
    requires multiset(a) == multiset(b)
    requires Ranked(a) && Ranked(b)
    ensures a == b
  {
    if a != [] {
      assert |b| == |a| by {
        assert |multiset(a)| == |multiset(b)|;
      }
      assert b[0] in multiset(a);
      assert a[0] in multiset(b);
      assert a[0] == b[0];
      assert a == [a[0]] + a[1..];
      assert b == [b[0]] + b[1..];
      assert multiset(a[1..]) == multiset(a) - multiset{a[0]};
      assert multiset(b[1..]) == multiset(b) - multiset{b[0]};
      RankedUnique(a[1..], b[1..]);
    }
  }

  /** Where `slice(0, end)` stops on a sequence of length n: a negative end
      counts back from the length. */
  function SliceEnd(n: nat, end: int): (e: nat)
    ensures e <= n
    ensures end >= 0 ==> e == if end < n then end else n
    ensures end < 0 ==> e == if n + end > 0 then n + end else 0
  {
    if end >= 0 then (if end < n then end else n)
    else if n + end > 0 then n + end
    else 0
  }

  /** A prefix of a non-increasing sequence is non-increasing, is part
      of the sequence, and beats everything it leaves out. */
  lemma PrefixIsTop(sorted: seq<GameScore>, n: nat)
    requires NonIncreasing(sorted) && n <= |sorted|
    ensures NonIncreasing(sorted[..n])
    ensures multiset(sorted[..n]) <= multiset(sorted)
    ensures forall x, y :: x in sorted && x !in sorted[..n] && y in sorted[..n] ==>
      y.data.score >= x.data.score
  {
    var r := sorted[..n];
    assert sorted == r + sorted[n..];
    assert multiset(sorted) == multiset(r) + multiset(sorted[n..]);
    forall x, y | x in sorted && x !in r && y in r
      ensures y.data.score >= x.data.score
    {
      var k :| 0 <= k < |sorted| && sorted[k] == x;
      var i :| 0 <= i < |r| && r[i] == y;
      assert k >= n;
    }
  }

  /** The scores of one game, in insertion order. */
  function ScoresOf(s: MemStorage, game: string): (r: seq<GameScore>)
    ensures forall x :: x in r <==> x in s.gameScores.rows && x.data.game == game
  {
    Filter(s.gameScores.rows, (x: GameScore) => x.data.game == game)
  }

  /** `getTopScores(game, limit)`: that game's scores, highest first, cut
      to the first `limit`. Every score returned is at least every score of
      the game that was left out. */
  function GetTopScores(s: MemStorage, game: string, limit: int): (r: seq<GameScore>)
    ensures forall x :: x in r ==> x in s.gameScores.rows && x.data.game == game
    ensures NonIncreasing(r)
    ensures multiset(r) <= multiset(ScoresOf(s, game))
    ensures limit >= 0 ==> |r| == if limit < |ScoresOf(s, game)| then limit else |ScoresOf(s, game)|
    ensures limit < 0 ==> |r| == if |ScoresOf(s, game)| + limit > 0 then |ScoresOf(s, game)| + limit else 0
    ensures forall x, y :: x in ScoresOf(s, game) && x !in r && y in r ==> y.data.score >= x.data.score
  {
    var all := ScoresOf(s, game);
    var sorted := SortByScore(all);
    assert |sorted| == |all| by {
      assert |multiset(sorted)| == |multiset(all)|;
    }
    var r := sorted[..SliceEnd(|sorted|, limit)];
    PrefixIsTop(sorted, |r|);
    assert forall x :: x in sorted <==> x in all by {
      forall x ensures x in sorted <==> x in all {
        assert x in sorted <==> x in multiset(sorted);
      }
    }
    assert forall x :: x in r ==> x in sorted by {
      forall x | x in r ensures x in sorted {
        assert x in multiset(r);
      }
    }
    r
  }

  /** A prefix of a ranked sequence ranks ahead of everything it leaves
      out. */
  lemma RankedPrefixIsTop(sorted: seq<GameScore>, n: nat)
    requires Ranked(sorted) && n <= |sorted|
    ensures Ranked(sorted[..n])
    ensures forall x, y :: x in sorted && x !in sorted[..n] && y in sorted[..n] ==> Ahead(y, x)
  {
    var r := sorted[..n];
    forall x, y | x in sorted && x !in r && y in r
      ensures Ahead(y, x)
    {
      var k :| 0 <= k < |sorted| && sorted[k] == x;
      var i :| 0 <= i < |r| && r[i] == y;
      assert k >= n;
    }
  }

  /** Under the store's invariant the top scores are fully ranked: equal
      scores come out in insertion (ascending id) order, because map
      iteration follows insertion order and the sort is stable. At a tie
      on the cut the earliest entries are the ones kept: every returned
      entry ranks ahead of every omitted one. */
  lemma TopScoresRanked(s: MemStorage, game: string, limit: int)
    requires StorageValid(s)
    ensures Ranked(GetTopScores(s, game, limit))
    ensures var r := GetTopScores(s, game, limit);
      forall x, y :: x in ScoresOf(s, game) && x !in r && y in r ==> Ahead(y, x)
  {
    var all := ScoresOf(s, game);
    var sorted := SortByScore(all);
    SortByScoreStable(all);
    var r := GetTopScores(s, game, limit);
    assert r == sorted[..SliceEnd(|sorted|, limit)];
    RankedPrefixIsTop(sorted, |r|);
    forall x | x in all
      ensures x in sorted
    {
      assert x in multiset(all);
    }
  }

  /** Deleting a stored id makes it unreachable and leaves other ids alone;
      deleting an absent id changes nothing. */
  lemma DeleteMediaFileLookup(s: MemStorage, id: int)
    ensures Lookup(DeleteMediaFile(s, id).mediaFiles.rows, id) == None
    ensures forall k :: k != id ==>
      Lookup(DeleteMediaFile(s, id).mediaFiles.rows, k) == Lookup(s.mediaFiles.rows, k)
    ensures Lookup(s.mediaFiles.rows, id) == None ==> DeleteMediaFile(s, id) == s
  {
    forall k | k != id
      ensures Lookup(DeleteMediaFile(s, id).mediaFiles.rows, k) == Lookup(s.mediaFiles.rows, k)
    {
      RemoveLookup(s.mediaFiles.rows, id, k);
    }
    if Lookup(s.mediaFiles.rows, id) == None {
      RemoveAbsent(s.mediaFiles, id);
    }
  }

  /** Ids are handed out in increasing order: a file added after another
      always has the larger id, even across deletions. */
  lemma IdsMonotone(s: MemStorage, a: MediaInfo, b: MediaInfo, del: int, t1: int, t2: int)
    requires StorageValid(s)
    ensures var (s1, f1) := AddMediaFile(s, a, t1);
      var (s2, f2) := AddMediaFile(DeleteMediaFile(s1, del), b, t2);
      f1.id < f2.id && StorageValid(s2)
  {
  }
}

=== FILE: tetris_board.dfy ===
/** The Tetris playfield: a 10-wide, 20-high grid of cells, the collision
    test for a piece at an offset, locking a piece into the grid, and the
    line clear. Row 0 is the top row; a piece's position is the board
    coordinate of its shape's top-left cell. */
module TetrisBoard {
  import opened TetrisPieces

  const Width := 10
  const Height := 20

  /** A board cell holds nothing or the colour of the piece locked there. */
  datatype Cell = Empty | Filled(color: string)

  type Row = seq<Cell>
  type Board = seq<Row>

  datatype Position = Position(x: int, y: int)

  datatype Piece = Piece(shape: Shape, color: string, pos: Position)

  predicate WellFormed(b: Board) {
    |b| == Height && forall y :: 0 <= y < |b| ==> |b[y]| == Width
  }

  function EmptyRow(): (row: Row)
    ensures |row| == Width && forall x :: 0 <= x < |row| ==> row[x] == Empty
  {
    seq(Width, _ => Empty)
  }

  function EmptyRows(n: nat): (rows: seq<Row>)
    ensures |rows| == n && forall y :: 0 <= y < n ==> rows[y] == EmptyRow()
  {
    seq(n, _ => EmptyRow())
  }

  function EmptyBoard(): (b: Board)
    ensures WellFormed(b)
    ensures forall y, x :: 0 <= y < Height && 0 <= x < Width ==> b[y][x] == Empty
  {
    EmptyRows(Height)
  }

  /** A shape cell landing on board column `cx`, row `cy` is acceptable:
      inside the side walls, above the floor, and on an empty cell unless it
      is still above the top of the board. */
  predicate CellFree(b: Board, cx: int, cy: int)
    requires WellFormed(b)
  {
    0 <= cx < Width && cy < Height && (0 <= cy ==> b[cy][cx] == Empty)
  }

  /** Every filled cell of `s`, with its top-left corner at (nx, ny), is
      acceptable. */
  predicate Fits(b: Board, s: Shape, nx: int, ny: int)
    requires WellFormed(b)
  {
    forall i, j :: 0 <= i < |s| && 0 <= j < |s[i]| && s[i][j] ==> CellFree(b, nx + j, ny + i)
  }

  /** The inner loop of the collision test: columns j.. of one shape row. */
  function ScanRow(b: Board, row: seq<bool>, nx: int, cy: int, j: nat): (ok: bool)
    requires WellFormed(b) && j <= |row|
    ensures ok <==> forall k :: j <= k < |row| && row[k] ==> CellFree(b, nx + k, cy)
    decreases |row| - j
  {
    if j == |row| then true
    else if row[j] && (nx + j < 0 || nx + j >= Width || cy >= Height || (cy >= 0 && b[cy][nx + j] != Empty)) then false
    else ScanRow(b, row, nx, cy, j + 1)
  }

  /** The outer loop of the collision test: rows i.. of the shape. */
  function ScanShape(b: Board, s: Shape, nx: int, ny: int, i: nat): (ok: bool)
    requires WellFormed(b) && i <= |s|
    ensures ok <==> forall k, j :: i <= k < |s| && 0 <= j < |s[k]| && s[k][j] ==> CellFree(b, nx + j, ny + k)
    decreases |s| - i
  {
    if i == |s| then true
    else if !ScanRow(b, s[i], nx, ny + i, 0) then false
    else ScanShape(b, s, nx, ny, i + 1)
  }

  /** Whether `p` moved by (dx, dy) collides with nothing. Cells above the
      top of the board (row < 0) are allowed. */
  function IsValidMove(b: Board, p: Piece, dx: int, dy: int): (ok: bool)
    requires WellFormed(b)
    ensures ok <==> Fits(b, p.shape, p.pos.x + dx, p.pos.y + dy)
  {
    ScanShape(b, p.shape, p.pos.x + dx, p.pos.y + dy, 0)
  }

  /** Board cell (cx, cy) lies under a filled cell of `p`. */
  predicate Covers(p: Piece, cx: int, cy: int) {
    var i, j := cy - p.pos.y, cx - p.pos.x;
    0 <= i < |p.shape| && 0 <= j < |p.shape[i]| && p.shape[i][j]
  }

  /** What locking a piece needs to write only inside the board: every filled
      cell is between the walls and above the floor. */
  predicate InBounds(p: Piece) {
    forall i, j :: 0 <= i < |p.shape| && 0 <= j < |p.shape[i]| && p.shape[i][j] ==>
      0 <= p.pos.x + j < Width && p.pos.y + i < Height
  }

  lemma ValidIsInBounds(b: Board, p: Piece)
    requires WellFormed(b) && IsValidMove(b, p, 0, 0)
    ensures InBounds(p)
  {
    forall i, j | 0 <= i < |p.shape| && 0 <= j < |p.shape[i]| && p.shape[i][j]
      ensures 0 <= p.pos.x + j < Width && p.pos.y + i < Height
    {
      assert CellFree(b, p.pos.x + 0 + j, p.pos.y + 0 + i);
    }
  }

  function SetCell(b: Board, cx: int, cy: int, c: Cell): (r: Board)
    requires WellFormed(b) && 0 <= cx < Width && 0 <= cy < Height
    ensures WellFormed(r)
    ensures forall y, x {:trigger r[y][x]} :: 0 <= y < Height && 0 <= x < Width ==>
      r[y][x] == (if y == cy && x == cx then c else b[y][x])
  {
    b[cy := b[cy][cx := c]]
  }

  /** Writes the filled cells (i, j..) of row i of the shape. */
  function PlaceRow(b: Board, p: Piece, i: nat, j: nat): (r: Board)
    requires WellFormed(b) && InBounds(p) && i < |p.shape| && j <= |p.shape[i]|
    ensures WellFormed(r)
    ensures forall y, x {:trigger r[y][x]} :: 0 <= y < Height && 0 <= x < Width ==>
      r[y][x] == (if y - p.pos.y == i && x - p.pos.x >= j && Covers(p, x, y) then Filled(p.color) else b[y][x])
    decreases |p.shape[i]| - j
  {
    if j == |p.shape[i]| then b
    else
      var cy := p.pos.y + i;
      var b' := if p.shape[i][j] && cy >= 0 then SetCell(b, p.pos.x + j, cy, Filled(p.color)) else b;
      PlaceRow(b', p, i, j + 1)
  }

  /** Writes the filled cells of rows i.. of the shape. */
  function PlaceRows(b: Board, p: Piece, i: nat): (r: Board)
    requires WellFormed(b) && InBounds(p) && i <= |p.shape|
    ensures WellFormed(r)
    ensures forall y, x {:trigger r[y][x]} :: 0 <= y < Height && 0 <= x < Width ==>
      r[y][x] == (if y - p.pos.y >= i && Covers(p, x, y) then Filled(p.color) else b[y][x])
    decreases |p.shape| - i
  {
    if i == |p.shape| then b
    else PlaceRows(PlaceRow(b, p, i, 0), p, i + 1)
  }

  /** Locks `p` into the board: the piece colour is written into exactly the
      board cells under its filled cells (rows < 0 are dropped) and every
      other cell keeps its content. */
  function PlacePiece(b: Board, p: Piece): (r: Board)
    requires WellFormed(b) && InBounds(p)
    ensures WellFormed(r)
    ensures forall y, x {:trigger r[y][x]} :: 0 <= y < Height && 0 <= x < Width ==>
      r[y][x] == (if Covers(p, x, y) then Filled(p.color) else b[y][x])
  {
    PlaceRows(b, p, 0)
  }

  /** Locking a piece that collides with nothing changes exactly the cells
      under it, all of which were empty. */
  lemma PlaceValidPiece(b: Board, p: Piece)
    requires WellFormed(b) && IsValidMove(b, p, 0, 0)
    ensures InBounds(p)
    ensures forall y, x :: 0 <= y < Height && 0 <= x < Width && Covers(p, x, y) ==> b[y][x] == Empty
    ensures forall y, x :: 0 <= y < Height && 0 <= x < Width ==>
      (PlacePiece(b, p)[y][x] != b[y][x] <==> Covers(p, x, y))
  {
    ValidIsInBounds(b, p);
    forall y, x | 0 <= y < Height && 0 <= x < Width && Covers(p, x, y)
      ensures b[y][x] == Empty
    {
      var i, j := y - p.pos.y, x - p.pos.x;
      assert CellFree(b, p.pos.x + 0 + j, p.pos.y + 0 + i);
    }
  }

  // ---------------------------------------------------------------------
  // Line clearing

  /** The source's `row.every(cell => cell !== 0)`. */
  predicate FullRow(row: Row) {
    forall x :: 0 <= x < |row| ==> row[x] != Empty
  }

  predicate NoFullRow(rows: seq<Row>) {
    forall y :: 0 <= y < |rows| ==> !FullRow(rows[y])
  }

  /** The number of full rows. */
  function FullCount(rows: seq<Row>): nat {
    if rows == [] then 0 else (if FullRow(rows[0]) then 1 else 0) + FullCount(rows[1..])
  }

  /** The rows that are not full, in their original order. */
  function Kept(rows: seq<Row>): (k: seq<Row>)
    ensures NoFullRow(k)
    ensures |k| + FullCount(rows) == |rows|
    ensures forall r :: r in k ==> r in rows
  {
    if rows == [] then [] else (if FullRow(rows[0]) then [] else [rows[0]]) + Kept(rows[1..])
  }

  lemma {:induction false} FullCountAppend(a: seq<Row>, b: seq<Row>)
    ensures FullCount(a + b) == FullCount(a) + FullCount(b)
  {
    if a != [] {
      assert (a + b)[1..] == a[1..] + b;
      FullCountAppend(a[1..], b);
    } else {
      assert a + b == b;
    }
  }

  lemma {:induction false} KeptAppend(a: seq<Row>, b: seq<Row>)
    ensures Kept(a + b) == Kept(a) + Kept(b)
  {
    if a != [] {
      assert (a + b)[1..] == a[1..] + b;
      KeptAppend(a[1..], b);
    } else {
      assert a + b == b;
    }
  }

  /** Kept removes exactly the full rows: a row that is not full occurs in
      the result as often as in the input, a full row never does. */
  lemma {:induction false} KeptIsFilter(rows: seq<Row>, r: Row)
    ensures multiset(Kept(rows))[r] == if FullRow(r) then 0 else multiset(rows)[r]
  {
    if rows != [] {
      KeptIsFilter(rows[1..], r);
      assert rows == [rows[0]] + rows[1..];
    }
  }

  lemma EmptyRowNotFull()
    ensures !FullRow(EmptyRow())
  {
    assert EmptyRow()[0] == Empty;
  }

  lemma SplitLast(b: seq<Row>, y: int)
    requires 0 <= y < |b|
    ensures b[..y + 1] == b[..y] + [b[y]]
    ensures FullCount(b[..y + 1]) == FullCount(b[..y]) + (if FullRow(b[y]) then 1 else 0)
    ensures Kept(b[..y + 1]) == Kept(b[..y]) + (if FullRow(b[y]) then [] else [b[y]])
  {
    assert b[..y + 1] == b[..y] + [b[y]];
    FullCountAppend(b[..y], [b[y]]);
    KeptAppend(b[..y], [b[y]]);
    assert [b[y]][1..] == [];
  }

  datatype Cleared = Cleared(board: Board, lines: nat)

  /** The board the scan will produce when rows y+1.. are already scanned:
      one empty row per full row among rows ..y, then the non-full rows
      among them, then the scanned rows. */
  function Outcome(b: seq<Row>, y: int): seq<Row>
    requires -1 <= y < |b|
  {
    EmptyRows(FullCount(b[..y + 1])) + Kept(b[..y + 1]) + b[y + 1..]
  }

  /** Splicing out full row y and putting an empty row on top leaves one
      full row fewer among rows ..y and the same outcome. */
  lemma ClearStepFull(b: Board, y: int)
    requires WellFormed(b) && 0 <= y < Height && FullRow(b[y])
    ensures WellFormed([EmptyRow()] + b[..y] + b[y + 1..])
    ensures FullCount(([EmptyRow()] + b[..y] + b[y + 1..])[..y + 1]) == FullCount(b[..y + 1]) - 1
    ensures Outcome([EmptyRow()] + b[..y] + b[y + 1..], y) == Outcome(b, y)
  {
    var b' := [EmptyRow()] + b[..y] + b[y + 1..];
    SplitLast(b, y);
    assert b'[..y + 1] == [EmptyRow()] + b[..y];
    assert b'[y + 1..] == b[y + 1..];
    EmptyRowNotFull();
    FullCountAppend([EmptyRow()], b[..y]);
    KeptAppend([EmptyRow()], b[..y]);
    assert FullCount([EmptyRow()]) == 0 by {
      assert [EmptyRow()][1..] == [];
    }
    assert Kept([EmptyRow()]) == [EmptyRow()] by {
      assert [EmptyRow()][1..] == [];
    }
    var f := FullCount(b[..y]);
    assert EmptyRows(f + 1) == EmptyRows(f) + [EmptyRow()];
  }

  /** Passing over a row that is not full keeps the outcome. */
  lemma ClearStepKeep(b: Board, y: int)
    requires WellFormed(b) && 0 <= y < Height && !FullRow(b[y])
    ensures FullCount(b[..y]) == FullCount(b[..y + 1])
    ensures Outcome(b, y - 1) == Outcome(b, y)
  {
    SplitLast(b, y);
    assert b[y..] == [b[y]] + b[y + 1..];
  }

  /** The source's scan from row y upwards: a full row is spliced out, an
      empty row is put on top and the same index is examined again;
      otherwise the scan moves one row up. `cleared` counts removed rows.
      Rows below y have already been scanned. */
  function ClearFrom(b: Board, y: int, cleared: nat): (r: Cleared)
    requires WellFormed(b) && -1 <= y < Height
    ensures r.board == Outcome(b, y)
    ensures r.lines == cleared + FullCount(b[..y + 1])
    decreases y + 1, FullCount(b[..y + 1])
  {
    if y < 0 then Cleared(b, cleared)
    else if FullRow(b[y]) then
      ClearStepFull(b, y);
      ClearFrom([EmptyRow()] + b[..y] + b[y + 1..], y, cleared + 1)
    else
      ClearStepKeep(b, y);
      ClearFrom(b, y - 1, cleared)
  }

  /** Clearing keeps the board 10 by 20, removes exactly the full rows,
      keeps the other rows in order at the bottom, puts one empty row on top
      for each removed row, and leaves no full row. */
  function ClearLines(b: Board): (r: Cleared)
    requires WellFormed(b)
    ensures r.lines == FullCount(b)
    ensures r.board == EmptyRows(r.lines) + Kept(b)
    ensures WellFormed(r.board) && NoFullRow(r.board)
    ensures forall y :: 0 <= y < r.lines ==> r.board[y] == EmptyRow()
  {
    assert b[..Height] == b;
    assert b[Height..] == [];
    var r := ClearFrom(b, Height - 1, 0);
    EmptyRowNotFull();
    forall y | 0 <= y < Height
      ensures |r.board[y]| == Width && !FullRow(r.board[y])
    {
      if y >= r.lines {
        var row := Kept(b)[y - r.lines];
        assert row in Kept(b);
        assert row in b;
      }
    }
    r
  }

  /** A board without full rows has no full row in its non-full rows, so
      clearing it does nothing. */
  lemma ClearNoFullRow(b: Board)
    requires WellFormed(b) && NoFullRow(b)
    ensures ClearLines(b) == Cleared(b, 0)
  {
    NoFullRowKept(b);
  }

  lemma {:induction false} NoFullRowKept(rows: seq<Row>)
    requires NoFullRow(rows)
    ensures Kept(rows) == rows && FullCount(rows) == 0
  {
    if rows != [] {
      assert !FullRow(rows[0]);
      NoFullRowKept(rows[1..]);
    }
  }

  /** If every full row lies in the window of n rows starting at index lo,
      at most n rows are full. */
  lemma {:induction false} FullCountWindow(rows: seq<Row>, lo: int, n: nat)
    requires forall y :: 0 <= y < |rows| && FullRow(rows[y]) ==> lo <= y < lo + n
    ensures FullCount(rows) <= n
  {
    if rows != [] {
      var rest := rows[1..];
      if FullRow(rows[0]) {
        forall y | 0 <= y < |rest| && FullRow(rest[y])
          ensures lo <= y < lo + (n - 1)
        {
          assert rows[y + 1] == rest[y];
        }
        FullCountWindow(rest, lo, n - 1);
      } else {
        forall y | 0 <= y < |rest| && FullRow(rest[y])
          ensures lo - 1 <= y < lo - 1 + n
        {
          assert rows[y + 1] == rest[y];
        }
        FullCountWindow(rest, lo - 1, n);
      }
    }
  }

  /** Locking a piece into a board without full rows can complete only rows
      the piece covers, so at most as many rows as the shape has. */
  lemma LockClearsAtMostShapeRows(b: Board, p: Piece)
    requires WellFormed(b) && NoFullRow(b) && InBounds(p)
    ensures FullCount(PlacePiece(b, p)) <= |p.shape|
  {
    var placed := PlacePiece(b, p);
    forall y | 0 <= y < |placed| && !(p.pos.y <= y < p.pos.y + |p.shape|)
      ensures !FullRow(placed[y])
    {
      assert !FullRow(b[y]);
      var x :| 0 <= x < |b[y]| && b[y][x] == Empty;
      assert placed[y][x] == b[y][x];
    }
    FullCountWindow(placed, p.pos.y, |p.shape|);
  }
}

=== FILE: tetris_game.dfy ===
/** The Tetris engine's state and its steps: spawning, validated moves and
    rotation, soft and hard drops, the timed drop that locks a piece, clears
    lines and scores them, and the keyboard dispatch. The `onScoreChange`
    and `onGameOver` callbacks become events returned by each step. */
module TetrisGame {
  import opened TetrisPieces
  import opened TetrisBoard

  /** New pieces appear with their top-left cell at column 4, row 0. */
  const SpawnPos := Position(Width / 2 - 1, 0)

  /** Points for clearing 0, 1, 2, 3 or 4 rows at once, times the level. */
  const LineScores: seq<int> := [0, 100, 300, 500, 800]

  datatype Game = Game(
    board: Board,
    current: Piece,
    next: Piece,
    score: int,
    lines: int,
    level: int,
    dropTime: int,
    lastTime: int)

  datatype Event = ScoreChanged(score: int) | GameOver(finalScore: int)

  datatype Step = Step(game: Game, events: seq<Event>)

  /** A step ended the game when its last event reports game over. */
  predicate GameEnded(events: seq<Event>) {
    |events| > 0 && events[|events| - 1].GameOver?
  }

  /** What every state of a game in progress satisfies. */
  predicate Inv(g: Game) {
    && WellFormed(g.board) && NoFullRow(g.board)
    && WellShaped(g.current.shape) && g.current.color != ""
    && IsValidMove(g.board, g.current, 0, 0) && InBounds(g.current)
    && WellShaped(g.next.shape) && g.next.color != "" && g.next.pos == SpawnPos
    && g.lines >= 0 && g.level == g.lines / 10 + 1 && g.score >= 0
  }

  /** `createPiece`: template number `choice` (the source draws it uniformly
      at random) placed at the spawn position. */
  function CreatePiece(choice: nat): (p: Piece)
    requires choice < |Pieces|
    ensures p.pos == SpawnPos && WellShaped(p.shape) && p.color != ""
    ensures p.shape == Pieces[choice].shape && p.color == Pieces[choice].color
  {
    TemplateWellFormed(choice);
    Piece(Pieces[choice].shape, Pieces[choice].color, SpawnPos)
  }

  /** Every shape in play fits the empty board at the spawn position. */
  lemma SpawnFitsEmptyBoard(p: Piece)
    requires WellShaped(p.shape) && p.pos == SpawnPos
    ensures IsValidMove(EmptyBoard(), p, 0, 0)
  {
  }

  datatype Spawned = Spawned(game: Game, ok: bool)

  /** `spawnNewPiece`: the waiting piece becomes current, a new piece waits,
      and the spawn fails exactly when the new current piece collides at its
      spawn position. */
  function Spawn(g: Game, choice: nat): (r: Spawned)
    requires WellFormed(g.board) && choice < |Pieces|
    ensures r.game == g.(current := g.next, next := CreatePiece(choice))
    ensures r.ok <==> Fits(g.board, g.next.shape, g.next.pos.x, g.next.pos.y)
  {
    var g' := g.(current := g.next, next := CreatePiece(choice));
    Spawned(g', IsValidMove(g'.board, g'.current, 0, 0))
  }

  /** `resetGame` while running: an empty board, score, lines, level and
      both frame timers reset, a score notification of 0, then a spawn with no waiting piece,
      which draws the first piece and then the waiting one. */
  function NewGame(first: nat, second: nat): (r: Step)
    requires first < |Pieces| && second < |Pieces|
    ensures Inv(r.game) && !GameEnded(r.events) && r.events == [ScoreChanged(0)]
    ensures r.game.board == EmptyBoard()
    ensures r.game.score == 0 && r.game.lines == 0 && r.game.level == 1
    ensures r.game.dropTime == 0 && r.game.lastTime == 0
    ensures r.game.current == CreatePiece(first) && r.game.next == CreatePiece(second)
  {
    var p := CreatePiece(first);
    var g := Game(EmptyBoard(), p, p, 0, 0, 1, 0, 0);
    var s := Spawn(g, second);
    SpawnFitsEmptyBoard(p);
    ValidIsInBounds(s.game.board, s.game.current);
    Step(s.game, [ScoreChanged(0)] + (if s.ok then [] else [GameOver(0)]))
  }

  datatype Moved = Moved(game: Game, ok: bool)

  /** `movePiece`: validate, then commit. On success only the current
      piece's position changes, by exactly (dx, dy); on failure nothing
      changes. */
  function MovePiece(g: Game, dx: int, dy: int): (r: Moved)
    requires WellFormed(g.board)
    ensures r.ok <==> Fits(g.board, g.current.shape, g.current.pos.x + dx, g.current.pos.y + dy)
    ensures r.ok ==> r.game == g.(current := g.current.(pos := Position(g.current.pos.x + dx, g.current.pos.y + dy)))
    ensures !r.ok ==> r.game == g
    ensures r.ok ==> IsValidMove(r.game.board, r.game.current, 0, 0)
  {
    if IsValidMove(g.board, g.current, dx, dy) then
      var p := g.current.(pos := Position(g.current.pos.x + dx, g.current.pos.y + dy));
      Moved(g.(current := p), true)
    else
      Moved(g, false)
  }

  /** `rotatePieceAction`: the rotated shape is kept exactly when it fits at
      the current position; there is no wall kick. */
  function RotatePieceAction(g: Game): (r: Game)
    requires WellFormed(g.board) && Rectangular(g.current.shape)
    ensures Fits(g.board, Rotate(g.current.shape), g.current.pos.x, g.current.pos.y) ==>
      r == g.(current := g.current.(shape := Rotate(g.current.shape)))
    ensures !Fits(g.board, Rotate(g.current.shape), g.current.pos.x, g.current.pos.y) ==> r == g
  {
    var rotated := g.current.(shape := Rotate(g.current.shape));
    if IsValidMove(g.board, rotated, 0, 0) then g.(current := rotated) else g
  }

  /** Moves and rotations keep a game in progress consistent: the current
      piece still collides with nothing. */
  lemma MovesKeepInv(g: Game, dx: int, dy: int)
    requires Inv(g)
    ensures Inv(MovePiece(g, dx, dy).game)
    ensures Inv(RotatePieceAction(g))
  {
    var m := MovePiece(g, dx, dy);
    if m.ok {
      ValidIsInBounds(m.game.board, m.game.current);
    }
    var r := RotatePieceAction(g);
    if r != g {
      RotateWellShaped(g.current.shape);
      assert IsValidMove(r.board, r.current, 0, 0);
      ValidIsInBounds(r.board, r.current);
    }
  }

  /** How far `p` falls: it can move down by every k up to the distance and
      cannot move down one row more. */
  function DropDistance(b: Board, p: Piece): (d: nat)
    requires WellFormed(b) && HasFilledCell(p.shape)
    ensures forall k :: 1 <= k <= d ==> IsValidMove(b, p, 0, k)
    ensures !IsValidMove(b, p, 0, d + 1)
    decreases Height - p.pos.y
  {
    if IsValidMove(b, p, 0, 1) then
      ValidAboveFloor(b, p, 1);
      var below := p.(pos := Position(p.pos.x, p.pos.y + 1));
      var d := DropDistance(b, below);
      ShiftDown(b, p, below, d + 2);
      1 + d
    else
      0
  }

  /** A piece with a filled cell that fits after moving down by dy is still
      above the floor. */
  lemma ValidAboveFloor(b: Board, p: Piece, dy: int)
    requires WellFormed(b) && HasFilledCell(p.shape) && IsValidMove(b, p, 0, dy)
    ensures p.pos.y + dy < Height
  {
    var i, j :| 0 <= i < |p.shape| && 0 <= j < |p.shape[i]| && p.shape[i][j];
    assert CellFree(b, p.pos.x + 0 + j, p.pos.y + dy + i);
  }

  /** Moving `p` down by k is moving `below`, one row lower, down by k - 1. */
  lemma ShiftDown(b: Board, p: Piece, below: Piece, n: int)
    requires WellFormed(b) && below == p.(pos := Position(p.pos.x, p.pos.y + 1))
    ensures forall k :: 1 <= k <= n ==> IsValidMove(b, p, 0, k) == IsValidMove(b, below, 0, k - 1)
  {
    forall k | 1 <= k <= n
      ensures IsValidMove(b, p, 0, k) == IsValidMove(b, below, 0, k - 1)
    {
      assert below.pos.y + (k - 1) == p.pos.y + k;
    }
  }

  /** `hardDrop`: the piece falls as far as it can, 2 points per row fallen
      are added, and the score is always reported. The piece is not locked
      here; the next timed drop locks it. */
  function HardDrop(g: Game): (r: Step)
    requires WellFormed(g.board) && HasFilledCell(g.current.shape)
    ensures r.game.current.pos.x == g.current.pos.x && r.game.current.pos.y >= g.current.pos.y
    ensures r.game == g.(current := r.game.current, score := r.game.score)
    ensures r.game.current == g.current.(pos := r.game.current.pos)
    ensures r.game.score == g.score + 2 * (r.game.current.pos.y - g.current.pos.y)
    ensures forall k :: 1 <= k <= r.game.current.pos.y - g.current.pos.y ==> IsValidMove(g.board, g.current, 0, k)
    ensures !IsValidMove(g.board, r.game.current, 0, 1)
    ensures r.events == [ScoreChanged(r.game.score)]
  {
    var d := DropDistance(g.board, g.current);
    var p := g.current.(pos := Position(g.current.pos.x, g.current.pos.y + d));
    assert IsValidMove(g.board, p, 0, 1) == IsValidMove(g.board, g.current, 0, d + 1) by {
      assert p.pos.y + 1 == g.current.pos.y + (d + 1);
    }
    var g' := g.(current := p, score := g.score + d * 2);
    Step(g', [ScoreChanged(g'.score)])
  }

  /** The soft-drop key: one row down, and 1 point only if the move
      succeeded. */
  function SoftDrop(g: Game): (r: Step)
    requires WellFormed(g.board)
    ensures Fits(g.board, g.current.shape, g.current.pos.x, g.current.pos.y + 1) ==>
      r.game == MovePiece(g, 0, 1).game.(score := g.score + 1) && r.events == [ScoreChanged(g.score + 1)]
    ensures !Fits(g.board, g.current.shape, g.current.pos.x, g.current.pos.y + 1) ==> r == Step(g, [])
  {
    var m := MovePiece(g, 0, 1);
    if m.ok then
      var g' := m.game.(score := m.game.score + 1);
      Step(g', [ScoreChanged(g'.score)])
    else
      Step(g, [])
  }

  /** Milliseconds between timed drops at a level: 1000 at level 1, 50 less
      per level, never below 50. */
  function DropInterval(level: int): (ms: int)
    ensures ms >= 50
    ensures level <= 1 ==> ms >= 1000
    ensures level >= 20 ==> ms == 50
  {
    var slowed := 1000 - (level - 1) * 50;
    if slowed > 50 then slowed else 50
  }

  /** The drop interval never grows as the level rises. */
  lemma DropIntervalMonotone(a: int, b: int)
    requires a <= b
    ensures DropInterval(b) <= DropInterval(a)
  {
  }

  /** The scoring after a line clear of k rows. For k > 0 the line count
      grows by k, the level is recomputed from the new line count, and the
      table value for k times that new level is added. */
  function ScoreLines(g: Game, k: nat): (r: Game)
    requires k < |LineScores|
    ensures k == 0 ==> r == g
    ensures k > 0 ==> r == g.(lines := r.lines, level := r.level, score := r.score)
    ensures k > 0 ==> r.lines == g.lines + k && r.level == r.lines / 10 + 1
    ensures k > 0 ==> r.score == g.score + LineScores[k] * r.level
  {
    if k > 0 then
      var lines := g.lines + k;
      var level := lines / 10 + 1;
      g.(lines := lines, level := level, score := g.score + LineScores[k] * level)
    else
      g
  }

  /** Score, lines and level never decrease through line scoring, and the
      level keeps following the line count. */
  lemma ScoreLinesMonotone(g: Game, k: nat)
    requires k < |LineScores| && g.lines >= 0 && g.level == g.lines / 10 + 1
    ensures var r := ScoreLines(g, k);
      r.score >= g.score && r.lines >= g.lines && r.level >= g.level && r.level == r.lines / 10 + 1
  {
  }

  /** Clearing a single row adds 100 points times the level reached after
      counting that row. */
  lemma SingleLineClear(g: Game)
    requires g.lines >= 0
    ensures ScoreLines(g, 1).lines == g.lines + 1
    ensures ScoreLines(g, 1).score == g.score + 100 * ((g.lines + 1) / 10 + 1)
  {
  }

  /** Locking the current piece: it is written into the board, full rows are
      cleared and scored, and the next piece is spawned. At most four rows
      can clear, since the board had no full row before and the piece spans
      at most four rows, so the score table is never indexed out of range. */
  function Lock(g: Game, choice: nat): (r: Step)
    requires Inv(g) && choice < |Pieces|
    ensures var cleared := ClearLines(PlacePiece(g.board, g.current));
      && cleared.lines <= |g.current.shape| <= 4
      && r.game == ScoreLines(g, cleared.lines).(board := cleared.board, current := g.next, next := CreatePiece(choice))
      && r.events ==
        (if cleared.lines > 0 then [ScoreChanged(r.game.score)] else []) +
        (if IsValidMove(cleared.board, g.next, 0, 0) then [] else [GameOver(r.game.score)])
  {
    var placed := PlacePiece(g.board, g.current);
    var cleared := ClearLines(placed);
    LockClearsAtMostShapeRows(g.board, g.current);
    var scored := ScoreLines(g, cleared.lines).(board := cleared.board);
    var s := Spawn(scored, choice);
    var scoreEvents := if cleared.lines > 0 then [ScoreChanged(scored.score)] else [];
    Step(s.game, scoreEvents + (if s.ok then [] else [GameOver(scored.score)]))
  }

  /** Locking ends the game exactly when the spawned piece collides. */
  lemma LockEndsGame(g: Game, choice: nat)
    requires Inv(g) && choice < |Pieces|
    ensures var r := Lock(g, choice);
      GameEnded(r.events) <==> !Fits(r.game.board, r.game.current.shape, SpawnPos.x, SpawnPos.y)
  {
    var r := Lock(g, choice);
    var cleared := ClearLines(PlacePiece(g.board, g.current));
    assert r.game.board == cleared.board && r.game.current == g.next;
    var fits := IsValidMove(cleared.board, g.next, 0, 0);
    var tail := if fits then [] else [GameOver(r.game.score)];
    assert r.events == (if cleared.lines > 0 then [ScoreChanged(r.game.score)] else []) + tail;
    assert GameEnded(r.events) <==> !fits;
  }

  /** Locking keeps a game in progress consistent unless the spawn ended
      it. */
  lemma LockKeepsInv(g: Game, choice: nat)
    requires Inv(g) && choice < |Pieces|
    ensures var r := Lock(g, choice); !GameEnded(r.events) ==> Inv(r.game)
  {
    var r := Lock(g, choice);
    LockEndsGame(g, choice);
    var cleared := ClearLines(PlacePiece(g.board, g.current));
    LockClearsAtMostShapeRows(g.board, g.current);
    ScoreLinesMonotone(g, cleared.lines);
    if !GameEnded(r.events) {
      assert IsValidMove(r.game.board, r.game.current, 0, 0);
      ValidIsInBounds(r.game.board, r.game.current);
    }
  }

  /** Locking never lowers score, lines or level. */
  lemma LockMonotone(g: Game, choice: nat)
    requires Inv(g) && choice < |Pieces|
    ensures var r := Lock(g, choice);
      r.game.score >= g.score && r.game.lines >= g.lines && r.game.level >= g.level
  {
    var cleared := ClearLines(PlacePiece(g.board, g.current));
    LockClearsAtMostShapeRows(g.board, g.current);
    ScoreLinesMonotone(g, cleared.lines);
  }

  /** The frame's bookkeeping: remember the timestamp and add the elapsed
      time to the drop accumulator. */
  function Advance(g: Game, time: int): (g': Game)
    ensures g' == g.(lastTime := g'.lastTime, dropTime := g'.dropTime)
    ensures g'.lastTime == time && g'.dropTime - g.dropTime == time - g.lastTime
  {
    g.(lastTime := time, dropTime := g.dropTime + (time - g.lastTime))
  }

  /** Whether a frame at `time` makes a drop due. */
  predicate DropDue(g: Game, time: int) {
    Advance(g, time).dropTime > DropInterval(g.level)
  }

  /** One animation frame (`gameLoop`) at timestamp `time`. The elapsed time
      is added to the drop accumulator; when it exceeds the drop interval the
      piece moves down one row or, if it cannot, is locked and the next piece
      spawned. The accumulator is then reset, except when the spawn ended
      the game: the loop returns before the reset, and with it the frame
      chain ends. `running` is the flag the loop captured when its chain
      started; a frame with it off does nothing. */
  function Tick(g: Game, running: bool, time: int, choice: nat): (r: Step)
    requires running ==> Inv(g)
    requires choice < |Pieces|
    ensures !running ==> r == Step(g, [])
    ensures running && !DropDue(g, time) ==> r == Step(Advance(g, time), [])
    ensures running && DropDue(g, time) && IsValidMove(g.board, g.current, 0, 1) ==>
      r == Step(MovePiece(Advance(g, time), 0, 1).game.(dropTime := 0), [])
    ensures running && DropDue(g, time) && !IsValidMove(g.board, g.current, 0, 1) ==>
      var l := Lock(Advance(g, time), choice);
      r.events == l.events && r.game == (if GameEnded(l.events) then l.game else l.game.(dropTime := 0))
  {
    if !running then Step(g, [])
    else
      var g1 := Advance(g, time);
      if g1.dropTime > DropInterval(g1.level) then
        var m := MovePiece(g1, 0, 1);
        if m.ok then
          Step(m.game.(dropTime := 0), [])
        else
          var l := Lock(g1, choice);
          if GameEnded(l.events) then l else Step(l.game.(dropTime := 0), l.events)
      else
        Step(g1, [])
  }

  /** A frame keeps a game in progress consistent unless it ended the game,
      and never lowers score, lines or level. */
  lemma TickKeepsInv(g: Game, time: int, choice: nat)
    requires Inv(g) && choice < |Pieces|
    ensures var r := Tick(g, true, time, choice);
      && (!GameEnded(r.events) ==> Inv(r.game))
      && r.game.score >= g.score && r.game.lines >= g.lines && r.game.level >= g.level
  {
    var g1 := Advance(g, time);
    if DropDue(g, time) {
      if IsValidMove(g.board, g.current, 0, 1) {
        MovesKeepInv(g1, 0, 1);
      } else {
        LockKeepsInv(g1, choice);
        LockMonotone(g1, choice);
      }
    }
  }

  datatype Input = LeftKey | RightKey | DownKey | UpKey | SpaceKey

  /** The key handler: arrows or WASD move, rotate or soft-drop, space
      hard-drops. Keys are ignored while the host is not running the game. */
  function KeyPress(g: Game, running: bool, input: Input): (r: Step)
    requires running ==> WellFormed(g.board) && WellShaped(g.current.shape)
    ensures !running ==> r == Step(g, [])
    ensures running ==> r.game.board == g.board && r.game.next == g.next
    ensures running ==> r.game.lines == g.lines && r.game.level == g.level
    ensures running ==> r.game.score >= g.score && !GameEnded(r.events)
    ensures running && input == LeftKey ==> r == Step(MovePiece(g, -1, 0).game, [])
    ensures running && input == RightKey ==> r == Step(MovePiece(g, 1, 0).game, [])
    ensures running && input == UpKey ==> r == Step(RotatePieceAction(g), [])
    ensures running && input == DownKey ==> r == SoftDrop(g)
    ensures running && input == SpaceKey ==> r == HardDrop(g)
  {
    if !running then Step(g, [])
    else
      match input
      case LeftKey => Step(MovePiece(g, -1, 0).game, [])
      case RightKey => Step(MovePiece(g, 1, 0).game, [])
      case DownKey => SoftDrop(g)
      case UpKey => Step(RotatePieceAction(g), [])
      case SpaceKey => HardDrop(g)
  }

  /** A hard drop keeps a game in progress consistent. */
  lemma HardDropKeepsInv(g: Game)
    requires Inv(g)
    ensures Inv(HardDrop(g).game)
  {
    var r := HardDrop(g);
    var d := r.game.current.pos.y - g.current.pos.y;
    if d > 0 {
      assert IsValidMove(g.board, g.current, 0, d);
      assert IsValidMove(r.game.board, r.game.current, 0, 0) by {
        assert r.game.current.pos.y + 0 == g.current.pos.y + d;
      }
      ValidIsInBounds(r.game.board, r.game.current);
    } else {
      assert r.game.current == g.current;
    }
  }

  /** Key input keeps a game in progress consistent. */
  lemma KeyPressKeepsInv(g: Game, input: Input)
    requires Inv(g)
    ensures Inv(KeyPress(g, true, input).game)
  {
    match input
    case LeftKey => MovesKeepInv(g, -1, 0);
    case RightKey => MovesKeepInv(g, 1, 0);
    case DownKey => MovesKeepInv(g, 0, 1);
    case UpKey => MovesKeepInv(g, 0, 0);
    case SpaceKey => HardDropKeepsInv(g);
  }
}

=== FILE: tetris_pieces.dfy ===
/** Tetromino shapes, the seven templates and the clockwise matrix rotation
    of the Tetris engine. A shape is a boolean matrix; `true` marks a filled
    cell (the source writes 1 and 0). */
module TetrisPieces {

  type Shape = seq<seq<bool>>

  /** A non-empty matrix whose rows all have the length of the first row. */
  predicate Rectangular(s: Shape) {
    |s| > 0 && |s[0]| > 0 && forall i :: 0 <= i < |s| ==> |s[i]| == |s[0]|
  }

  predicate HasFilledCell(s: Shape) {
    exists i, j :: 0 <= i < |s| && 0 <= j < |s[i]| && s[i][j]
  }

  /** What every shape in play satisfies: the templates and all their
      rotations are rectangles of at most 4 by 4 with a filled cell. */
  predicate WellShaped(s: Shape) {
    Rectangular(s) && |s| <= 4 && |s[0]| <= 4 && HasFilledCell(s)
  }

  /** The coordinates (row, column) of the filled cells of a shape. */
  function FilledCells(s: Shape): set<(int, int)> {
    set i, j | 0 <= i < |s| && 0 <= j < |s[i]| && s[i][j] :: (i, j)
  }

  function Reverse<T>(xs: seq<T>): (r: seq<T>)
    ensures |r| == |xs|
    ensures forall k :: 0 <= k < |xs| ==> r[k] == xs[|xs| - 1 - k]
  {
    if xs == [] then [] else Reverse(xs[1..]) + [xs[0]]
  }

  /** Column `c` of `s`, read top to bottom. */
  function Column(s: Shape, c: int): (col: seq<bool>)
    requires Rectangular(s) && 0 <= c < |s[0]|
  {
    seq(|s|, k requires 0 <= k < |s| => s[k][c])
  }

  /** Rotation as the source computes it: row i of the result is column i of
      the shape, reversed. An r-by-c shape becomes c-by-r and the result is
      the clockwise quarter turn of the matrix. */
  function Rotate(s: Shape): (r: Shape)
    requires Rectangular(s)
    ensures Rectangular(r)
    ensures |r| == |s[0]| && |r[0]| == |s|
    ensures forall i, j :: 0 <= i < |r| && 0 <= j < |s| ==> r[i][j] == s[|s| - 1 - j][i]
  {
    seq(|s[0]|, i requires 0 <= i < |s[0]| => Reverse(Column(s, i)))
  }

  /** Where the filled cell (i, j) of an n-row shape lands after `Rotate`. */
  function RotateCell(p: (int, int), n: int): (int, int) {
    (p.1, n - 1 - p.0)
  }

  /** Rotation preserves being well shaped, so every piece in play is. */
  lemma RotateWellShaped(s: Shape)
    requires WellShaped(s)
    ensures WellShaped(Rotate(s))
  {
    var r := Rotate(s);
    var i, j :| 0 <= i < |s| && 0 <= j < |s[i]| && s[i][j];
    assert r[j][|s| - 1 - i] == s[i][j];
  }

  /** `t` is `s` turned through half a revolution. */
  predicate IsHalfTurn(t: Shape, s: Shape)
    requires Rectangular(s)
  {
    && Rectangular(t) && |t| == |s| && |t[0]| == |s[0]|
    && forall i, j :: 0 <= i < |s| && 0 <= j < |s[0]| ==> t[i][j] == s[|s| - 1 - i][|s[0]| - 1 - j]
  }

  /** Two quarter turns are a half turn. */
  lemma RotateTwice(s: Shape)
    requires Rectangular(s)
    ensures IsHalfTurn(Rotate(Rotate(s)), s)
  {
    var r := Rotate(s);
    var t := Rotate(r);
    forall i, j | 0 <= i < |s| && 0 <= j < |s[0]|
      ensures t[i][j] == s[|s| - 1 - i][|s[0]| - 1 - j]
    {
      assert t[i][j] == r[|r| - 1 - j][i];
    }
  }

  /** Two half turns give back the original shape. */
  lemma HalfTurnTwice(s: Shape, h: Shape, t: Shape)
    requires Rectangular(s) && Rectangular(h)
    requires IsHalfTurn(h, s) && IsHalfTurn(t, h)
    ensures t == s
  {
    forall i | 0 <= i < |s|
      ensures t[i] == s[i]
    {
      forall j | 0 <= j < |s[i]|
        ensures t[i][j] == s[i][j]
      {
        assert t[i][j] == h[|h| - 1 - i][|h[0]| - 1 - j];
      }
    }
  }

  /** Four rotations give back the original shape. */
  lemma RotateFourTimes(s: Shape)
    requires Rectangular(s)
    ensures Rotate(Rotate(Rotate(Rotate(s)))) == s
  {
    var h := Rotate(Rotate(s));
    RotateTwice(s);
    RotateTwice(h);
    HalfTurnTwice(s, h, Rotate(Rotate(h)));
  }

  /** The filled cells of the rotated shape are the images of the filled
      cells of the shape. */
  lemma RotateFilledCells(s: Shape)
    requires Rectangular(s)
    ensures FilledCells(Rotate(s)) == set p | p in FilledCells(s) :: RotateCell(p, |s|)
  {
    var r := Rotate(s);
    var image := set p | p in FilledCells(s) :: RotateCell(p, |s|);
    forall q | q in FilledCells(r)
      ensures q in image
    {
      var p := (|s| - 1 - q.1, q.0);
      assert p in FilledCells(s);
      assert RotateCell(p, |s|) == q;
    }
    forall q | q in image
      ensures q in FilledCells(r)
    {
      var p :| p in FilledCells(s) && RotateCell(p, |s|) == q;
      assert r[q.0][q.1] == s[p.0][p.1];
    }
  }

  /** `RotateCell` is injective, so it keeps the size of a set of cells. */
  lemma {:induction false} RotateCellsCard(cells: set<(int, int)>, n: int)
    ensures |set p | p in cells :: RotateCell(p, n)| == |cells|
  {
    if cells != {} {
      var p :| p in cells;
      var rest := cells - {p};
      RotateCellsCard(rest, n);
      var image := set q | q in cells :: RotateCell(q, n);
      var restImage := set q | q in rest :: RotateCell(q, n);
      assert image == restImage + {RotateCell(p, n)};
      assert RotateCell(p, n) !in restImage;
    }
  }

  /** Rotation keeps the number of filled cells. */
  lemma RotatePreservesCellCount(s: Shape)
    requires Rectangular(s)
    ensures |FilledCells(Rotate(s))| == |FilledCells(s)|
  {
    RotateFilledCells(s);
    RotateCellsCard(FilledCells(s), |s|);
  }

  datatype Template = Template(shape: Shape, color: string)

  /** The seven tetrominoes in the source's order I, O, T, S, Z, J, L. */
  const Pieces: seq<Template> := [
    Template([[true, true, true, true]], "#00ffff"),
    Template([[true, true], [true, true]], "#ffff00"),
    Template([[false, true, false], [true, true, true]], "#800080"),
    Template([[false, true, true], [true, true, false]], "#00ff00"),
    Template([[true, true, false], [false, true, true]], "#ff0000"),
    Template([[true, false, false], [true, true, true]], "#0000ff"),
    Template([[false, false, true], [true, true, true]], "#ffa500")
  ]

  const OShape: Shape := Pieces[1].shape

  /** The O-piece is a fixed point of rotation. */
  lemma RotateO()
    ensures Rotate(OShape) == OShape
  {
    var r := Rotate(OShape);
    assert r[0] == [true, true];
    assert r[1] == [true, true];
  }

  /** A rectangle whose filled cells are exactly the four listed ones. */
  lemma FourCellShape(s: Shape, cells: set<(int, int)>)
    requires Rectangular(s) && |s| <= 4 && |s[0]| <= 4 && |cells| == 4
    requires forall p :: p in cells ==> 0 <= p.0 < |s| && 0 <= p.1 < |s[p.0]| && s[p.0][p.1]
    requires forall i, j :: 0 <= i < |s| && 0 <= j < |s[i]| && s[i][j] ==> (i, j) in cells
    ensures WellShaped(s) && |FilledCells(s)| == 4
  {
    assert FilledCells(s) == cells;
    var p :| p in cells;
    assert s[p.0][p.1];
  }

  /** Template `k` is well shaped, has a non-empty colour, and has exactly
      four filled cells. */
  lemma TemplateWellFormed(k: nat)
    requires k < |Pieces|
    ensures WellShaped(Pieces[k].shape) && Pieces[k].color != ""
    ensures |FilledCells(Pieces[k].shape)| == 4
  {
    var s := Pieces[k].shape;
    if k == 0 {
      assert s == [[true, true, true, true]];
      FourCellShape(s, {(0, 0), (0, 1), (0, 2), (0, 3)});
    } else if k == 1 {
      assert s == [[true, true], [true, true]];
      FourCellShape(s, {(0, 0), (0, 1), (1, 0), (1, 1)});
    } else if k == 2 {
      assert s == [[false, true, false], [true, true, true]];
      FourCellShape(s, {(0, 1), (1, 0), (1, 1), (1, 2)});
    } else if k == 3 {
      assert s == [[false, true, true], [true, true, false]];
      FourCellShape(s, {(0, 1), (0, 2), (1, 0), (1, 1)});
    } else if k == 4 {
      assert s == [[true, true, false], [false, true, true]];
      FourCellShape(s, {(0, 0), (0, 1), (1, 1), (1, 2)});
    } else if k == 5 {
      assert s == [[true, false, false], [true, true, true]];
      FourCellShape(s, {(0, 0), (1, 0), (1, 1), (1, 2)});
    } else {
      assert s == [[false, false, true], [true, true, true]];
      FourCellShape(s, {(0, 2), (1, 0), (1, 1), (1, 2)});
    }
  }
}
